=== FILE: README.md ===
# ember-data relationship engine, modelled in Dafny

This project models the early relationship engine of ember-data, the data layer of
Ember.js. A relationship object links records on the two sides of a `belongsTo` or
`hasMany` association. It keeps its `members` in an ordered set and has two slots,
`originalRecord` and `inverseRecord`. It tells the records it touches that a link
appeared or disappeared through `notifyBelongsToAdded/Removed` and
`notifyHasManyAdded/Removed`. Every record keeps a `_relationships` table from
relationship key to the relationship object stored there. The `belongsTo` computed
property's setter wires one relationship instance into the tables of both records, and
its getter reads the other side back.

There are four variants, chosen by `createRelationshipFor` from the declared kind and
the inverse:

- `OneToMany`: a has-many owner whose members point back through a belongsTo.
- `OneToOne`: at most two records, one per slot.
- `OneToNone`: a belongsTo without an inverse.
- `ManyToNone`: a has-many without an inverse.

The model has four modules:

- `OrderedSet` (`ordered_set.dfy`). `Ember.OrderedSet` as a sequence without
  repetitions. `add` is `Insert`, `remove` is `Delete`, and `setForArray`'s result is
  `Dedup`.
- `RecordModel` (`records.dfy`). Records are opaque ids, and the `_relationships`
  tables are a map. The class `Records` holds the tables and a ghost log of every
  notification and direct assignment. Its invariant is that the tables are the initial
  tables with the log applied.
- `Relationships` (`relationship.dfy`). What each variant's `addRecord` and
  `removeRecord` do is defined once, as the functions `AddStep` and `RemoveStep` on an
  abstract state. The class `Relationship` performs the same updates in place, and
  each of its methods is proved equal to those functions, both in the new state and in
  the notifications sent. The bulk operations, `computeChanges`, `unloadedMembers`,
  `setForArray` and the factory are modelled here too.
- `BelongsToAccessor` (`belongs_to.dfy`). The setter and getter branches of the
  `belongsTo` computed property.

Records' `isLoaded` flags are a map parameter. The inverse that the record type reports
for a key (`inverseFor`) is a parameter. The link for a key (`data.links[key]`) is a
parameter as well: `None` stands for every falsy link, the empty string included. The
accessor's `meta` is built with `key: null`, and the key it hands to
`createRelationshipFor` is taken to be the property name. Metadata code outside these
files fills `meta.key` in.

Two calls in the source dereference null:

- `OneToOne.addRecord` with both slots empty, at `relationship.js` line 144.
- `OneToOne.removeRecord` and `OneToNone.removeRecord` with an empty original slot, at
  lines 150 and 178.

Methods of `Relationship` take "no null is dereferenced" as a precondition (`CanAdd`,
`CanRemove`). The setter, which reaches these calls from any tables whose relationships
keep their invariant, returns `NullReference` instead.

One behaviour is kept as the code does it. Setting a belongsTo that has no inverse
creates a `OneToNone` for `this` and then calls `addRecord(this, value)`, and
`OneToNone.addRecord` stores its argument. So the relationship's `inverseRecord` ends
up as the record itself, not the value. The setter's contract states exactly that. Its
visible consequence is also stated: a belongsTo without an inverse never reads back the
value it was set to. The getter finds no other side and gives the link, or null.

## Model

| member | source | states |
|---|---|---|
| OrderedSet.Insert | packages/ember-data/lib/system/relationships/relationship.js:89 | `add` appends the element only when absent: the result has exactly the old elements plus `x`, keeps the old sequence as its prefix, and stays duplicate-free |
| OrderedSet.Delete | packages/ember-data/lib/system/relationships/relationship.js:95 | `remove` leaves exactly the other elements, never grows the set, and keeps it duplicate-free |
| OrderedSet.Dedup | packages/ember-data/lib/system/relationships/relationship.js:208-218 | an ordered set built by adding each element in turn has the same elements as its input and no repetition |
| RecordModel.Put | packages/ember-data/lib/system/relationships/belongs_to.js:185-193 | writing `record._relationships[key]` sets that entry and leaves every other (record, key) entry as it was |
| RecordModel.Records.NotifyBelongsToAdded | packages/ember-data/lib/system/relationships/belongs_to.js:185-188 | the record's entry for `key` becomes the relationship, no other entry changes, and the notification is logged |
| RecordModel.Records.NotifyBelongsToRemoved | packages/ember-data/lib/system/relationships/belongs_to.js:190-193 | the record's entry for `key` becomes null, no other entry changes, and the notification is logged |
| RecordModel.Records.NotifyHasManyAdded | packages/ember-data/lib/system/relationships/relationship.js:90 | the has-many notification is logged and no belongsTo entry changes |
| RecordModel.Records.NotifyHasManyRemoved | packages/ember-data/lib/system/relationships/relationship.js:96 | the has-many notification is logged and no belongsTo entry changes |
| RecordModel.Records.Assign | packages/ember-data/lib/system/relationships/belongs_to.js:143-153 | a direct table write by the setter changes exactly one entry and is logged |
| Relationships.Initial | packages/ember-data/lib/system/relationships/relationship.js:2-11 | a new relationship keeps its invariant, holds its record in the original slot with an empty inverse slot, and has that record as member exactly when it is one-to-one (line 106) |
| Relationships.AddStep | packages/ember-data/lib/system/relationships/relationship.js:87-92 | `addRecord(r)` makes `r` a member in every variant but OneToNone, which instead puts `r` in the inverse slot and leaves the members alone; no record other than `r` joins |
| Relationships.OneToOneAdd | packages/ember-data/lib/system/relationships/relationship.js:122-146 | one-to-one `addRecord` leaves `r` a member and lets no other record join |
| Relationships.RemoveStep | packages/ember-data/lib/system/relationships/relationship.js:94-98 | `removeRecord(r)` leaves exactly the other members (OneToNone clears its inverse slot and keeps the members), and sends only removal notifications |
| Relationships.Unloaded | packages/ember-data/lib/system/relationships/relationship.js:39-49 | the unloaded members are exactly the members whose `isLoaded` is false, never more than the members |
| Relationships.AddKeepsWellFormed | packages/ember-data/lib/system/relationships/relationship.js:122-146 | every variant's `addRecord` keeps the invariant (members a set; one-to-one members are exactly the two distinct slot holders), and leaves a one-to-one relationship with an occupied slot |
| Relationships.RemoveKeepsWellFormed | packages/ember-data/lib/system/relationships/relationship.js:148-159 | every variant's `removeRecord` keeps the invariant |
| Relationships.OneToOneAtMostTwo | packages/ember-data/lib/system/relationships/relationship.js:116-117 | a one-to-one relationship has as many members as occupied slots, so never more than two |
| Relationships.OneToOneEvicts | packages/ember-data/lib/system/relationships/relationship.js:125-136 | on a full one-to-one add, the inverse is evicted when `existingRecord` is the original and the original otherwise. The evicted record leaves the members and receives the only removal notification, on its slot's key. The new record takes its slot, the other slot is kept, and two members remain |
| Relationships.OneToOneFillsInverse | packages/ember-data/lib/system/relationships/relationship.js:137-145 | with only the original slot set, the new record fills the inverse slot and joins the members; each slot holder gets exactly one add notification, on its own key |
| Relationships.OneToOneAddMember | packages/ember-data/lib/system/relationships/relationship.js:123 | adding a record a one-to-one relationship already holds changes nothing and notifies nobody |
| Relationships.OneToOneRemove | packages/ember-data/lib/system/relationships/relationship.js:148-159 | one-to-one `removeRecord(r)` takes `r` out of the members and slots. It nulls only the slot holding `r`, checking the inverse first, and keeps the other slot. The original, then the inverse if any, are each notified once |
| Relationships.ManyToNoneNotifiesOwnerOnly | packages/ember-data/lib/system/relationships/relationship.js:197-206 | many-to-none add and remove notify only the has-many owner, on its key, about `r`; never `r` itself |
| Relationships.OneToManyNotifiesBothSides | packages/ember-data/lib/system/relationships/relationship.js:87-98 | one-to-many add and remove notify the owner on its has-many key and then `r` on the belongsTo key, in that order |
| Relationships.AddThenRemove | packages/ember-data/lib/system/relationships/relationship.js:87-98 | membership round trip: after `addRecord(r)` the record is a member, and after `removeRecord(r)` it is not, with the invariant kept |
| Relationships.AddIdempotent | packages/ember-data/lib/system/relationships/relationship.js:123 | adding the same record again, with any existing record, leaves the state of adding it once |
| Relationships.RemoveIdempotent | packages/ember-data/lib/system/relationships/relationship.js:148-159 | removing the same record again leaves the state of removing it once |
| Relationships.AddEventsPreserve | packages/ember-data/lib/system/relationships/relationship.js:126-145 | the notifications of `addRecord(r, existing)` store only this relationship, and never clear an entry of `r` or of `existing` |
| Relationships.OneToOneFullEvents | packages/ember-data/lib/system/relationships/relationship.js:128-145 | a full one-to-one add sends three notifications: the removal of the evicted record, which is neither `r` nor `existing`, then two adds of this relationship |
| Relationships.RemoveAllRemoves | packages/ember-data/lib/system/relationships/relationship.js:51-56 | `removeRecords` on a has-many variant never hits a null, and the members left are exactly the old ones not among the records given |
| Relationships.AddAllDefined | packages/ember-data/lib/system/relationships/relationship.js:58-63 | `addRecords` never hits a null once its first record can be added; it keeps the invariant, and for the has-many variants every record given becomes a member |
| Relationships.Relationship.constructor | packages/ember-data/lib/system/relationships/relationship.js:104-111 | the variant constructors give the initial state for the record and key, keeping the invariant |
| Relationships.Relationship.AddRecord | packages/ember-data/lib/system/relationships/relationship.js:87-92 | each variant's in-place `addRecord` (lines 87-92, 122-146, 181-184, 197-201) leaves exactly the state of `AddStep` and sends exactly its notifications, in order; the tables change accordingly and the invariant is kept |
| Relationships.Relationship.OneToOneAddRecord | packages/ember-data/lib/system/relationships/relationship.js:122-146 | the in-place one-to-one `addRecord` leaves exactly the state and notifications of `OneToOneAdd` |
| Relationships.Relationship.RemoveRecord | packages/ember-data/lib/system/relationships/relationship.js:94-98 | each variant's in-place `removeRecord` (lines 94-98, 148-159, 176-179, 203-206) leaves exactly the state of `RemoveStep` and sends exactly its notifications; the invariant is kept |
| Relationships.Relationship.GetOtherSideFor | packages/ember-data/lib/system/relationships/relationship.js:161-168 | no-inverse variants give null (the base, lines 65-67). One-to-many always gives its has-many record (lines 100-102). For a one-to-one member, the result is never the record itself and is a member when non-null |
| Relationships.Relationship.HasOtherSideFor | packages/ember-data/lib/system/relationships/belongs_to.js:165 | the getter's `hasOtherSideFor(this)` holds only for the one-to-many and one-to-one variants. It always holds for one-to-many. For a member of a valid one-to-one it holds exactly when both slots are taken |
| Relationships.OneToOneOtherSideSymmetric | packages/ember-data/lib/system/relationships/relationship.js:161-168 | a one-to-one member has an other side exactly when both slots are occupied. That other side is the other member, and its own other side is the first record again |
| Relationships.Relationship.UnloadedMembers | packages/ember-data/lib/system/relationships/relationship.js:39-49 | returns exactly the members whose `isLoaded` is false, in member order, and changes nothing |
| Relationships.Relationship.AddRecords | packages/ember-data/lib/system/relationships/relationship.js:58-63 | adding the records one by one never hits a null once the first can be added, and leaves the state, notifications and tables of the fold of `addRecord` over them |
| Relationships.Relationship.RemoveRecords | packages/ember-data/lib/system/relationships/relationship.js:51-56 | removing the records one by one leaves the state, notifications and tables of the fold of `removeRecord` over them |
| Relationships.Relationship.RemoveAllRecords | packages/ember-data/lib/system/relationships/relationship.js:69-74 | with an inverse record, exactly one `removeRecord` of it, after which it is not a member; without one, nothing changes; the inverse slot ends empty |
| Relationships.Relationship.ComputeChanges | packages/ember-data/lib/system/relationships/relationship.js:16-37 | `added` is exactly the de-duplicated input records not previously members, and `removed` exactly the previous members not in the input, each in order. Afterwards `members` holds exactly the input records: the kept old members in their order, then `added`. Null input counts as empty, and all three are duplicate-free. The has-many variants keep their invariant |
| Relationships.Relationship.AddMissing | packages/ember-data/lib/system/relationships/relationship.js:24-28 | the first pass appends exactly the target records that were not members, in target order, and returns them; the members stay a set |
| Relationships.Relationship.RemoveAbsent | packages/ember-data/lib/system/relationships/relationship.js:30-34 | the second pass removes exactly the members absent from the target, returning them in member order and keeping the others in order |
| Relationships.SetForArray | packages/ember-data/lib/system/relationships/relationship.js:208-218 | the ordered set of the array's records, each once in order of first occurrence; null gives the empty set |
| Relationships.VariantFor | packages/ember-data/lib/system/relationships/relationship.js:220-251 | the factory table, each row an if-and-only-if: belongsTo without inverse is OneToNone; hasMany without inverse is ManyToNone; hasMany with any inverse is OneToMany; belongsTo/belongsTo is OneToOne; belongsTo/hasMany is null. The inverse name becomes the variant's key |
| Relationships.CreateRelationshipFor | packages/ember-data/lib/system/relationships/relationship.js:220-251 | returns null exactly when the table says so; otherwise a fresh relationship of that variant, for the record and the declared key, in its initial state |
| BelongsToAccessor.SetBelongsTo | packages/ember-data/lib/system/relationships/belongs_to.js:136-161 | the setter returns the value it was given unless it dereferences null. It first removes `self` from the relationship at `key` with exactly that `removeRecord`'s notifications; a null value stops there. For a null value, it throws exactly when that removal would. For a value, `key` ends holding a relationship to which `self` was added last with the value as existing record. That is a new relationship of the factory's variant, or the one the value held at the inverse name. With an inverse, both records share it; a new one is one-to-one and holds both. A has-many inverse is always adopted. Without an inverse it is a new one-to-none holding `self` in its inverse slot. For a value, it throws exactly when the removal would, or when the later steps would. Those steps throw only with an inverse: when no relationship exists on either side, or when the relationship the value still holds after the removal cannot take `self`. That relationship is always adopted, unless the inverse entry is `key` itself. Reading back gives the value after a new one-to-one link, and null (or the link) without an inverse. The last `addRecord` starts from an adopted relationship as the removal left it. A new one starts linked with the value (`LinkedState`). The relationship previously at `key`, unless adopted back, keeps the state its `removeRecord` left. Every other entry is as the removal's notifications and then the final `addRecord`'s notifications leave it |
| BelongsToAccessor.RemoveFromCurrent | packages/ember-data/lib/system/relationships/belongs_to.js:138-140 | the relationship stored at `key`, if any, removes `self` first, with exactly `removeRecord`'s notifications and table effect; it fails only on a null original record |
| BelongsToAccessor.AttachValue | packages/ember-data/lib/system/relationships/belongs_to.js:142-159 | for a non-null value: `key` ends holding a relationship to which `self` was added last, with `value` as existing record. It is a new relationship of the factory's variant for `self` and `key`, or the one adopted from `value`. With an inverse, both records' entries hold it. The relationship the value holds at the inverse name is always adopted, unless that entry is `key` itself. The steps throw exactly when no relationship exists on either side, or when the adopted one cannot take `self`. The last `addRecord` starts from an adopted relationship's own state, or from a new one linked with the value. A relationship the value held is changed only by being adopted. Reading back gives the value after a new one-to-one link, and null without an inverse. Every other entry is as the final `addRecord`'s notifications leave it |
| BelongsToAccessor.StoreAndLink | packages/ember-data/lib/system/relationships/belongs_to.js:143-156 | before the last `addRecord`, `key` holds the new relationship of the factory's variant, or the one the value holds at the inverse name, which is always adopted unless that entry is `key` itself. A new one is linked with the value, holding both records. None exists exactly when the inverse is a has-many and the value holds nothing there. It can take `self` exactly when the later steps do not throw. An adopted relationship is left unchanged. A new one is in its initial state, with the value added when there is an inverse. A relationship the value held is changed only by being adopted. No entry changes but the one at `key` and, with an inverse, the value's at the inverse name |
| BelongsToAccessor.LinkInverse | packages/ember-data/lib/system/relationships/belongs_to.js:145-156 | if `value` holds a relationship at the inverse name, `key` is pointed at that same instance by a single assignment. Otherwise `value`'s entry is pointed at the new relationship and `value` is added to it with `self` as existing record, so both are members and both entries hold it. The new relationship's state and notifications are exactly those of that `addRecord`, after one assignment to `value`'s entry; no other entry changes except through them. The result is null exactly when no relationship exists on either side. No entry changes but the one at `key` and the value's at the inverse name |
| BelongsToAccessor.AddToStored | packages/ember-data/lib/system/relationships/belongs_to.js:158 | `addRecord(self, value)` on the relationship at `key`, with exactly `AddStep`'s state and notifications. Both entries that held it still do. It fails only where `addRecord` would dereference null, and a one-to-one already holding `self` is unchanged |
| BelongsToAccessor.LinkingFrame | packages/ember-data/lib/system/relationships/belongs_to.js:153-155 | pointing the value's inverse entry at the new one-to-one and adding the value to it write no entry besides the value's at the inverse name and `self`'s at `key` |
| BelongsToAccessor.OneToOneFillsInverseOrHolds | packages/ember-data/lib/system/relationships/belongs_to.js:150-155 | a new one-to-one relationship for `self` given `value` with `self` as existing record holds both records afterwards |
| BelongsToAccessor.GetLinkedOneToOne | packages/ember-data/lib/system/relationships/belongs_to.js:165-166 | when the one-to-one relationship at `key` holds `self` and another record, the getter gives that record |
| BelongsToAccessor.GetOneWay | packages/ember-data/lib/system/relationships/belongs_to.js:164-172 | when `key` holds a one-to-none relationship, the getter never gives a record: it gives the link, or null |
| BelongsToAccessor.GetBelongsTo | packages/ember-data/lib/system/relationships/belongs_to.js:164-172 | the other side when the relationship at `key` has one for `self`; else a fetch through the link for `key`; else null, each case an if-and-only-if |

## Left out

- The `Ember.computed` wrapper, `notifyPropertyChange` and `.meta(meta)` belong to the reactive layer. Only the table updates they accompany are modelled.
- `asyncBelongsTo` and every promise are left out. The getter returns `FetchLink(link)` where the code calls `store.findBelongsTo`, whose result is a network fetch. The async flag passed to `getOtherSideFor` is ignored.
- The many array that `OneToMany` and `ManyToNone` create through `store.recordArrayManager.createManyArray` (relationship.js lines 80-81 and 190-191) is absent. So are `manyType` and `store`.
- The `Ember.assert` type checks (belongs_to.js lines 113 and 137) depend on runtime class metadata and are not modelled.
- `notifyHasManyAdded/Removed` are only logged. Their bodies live in has_many.js, which is not part of this model, so they leave the belongsTo tables unchanged here.
- The source of `Ember.OrderedSet` is not among the modelled files; it is modelled by its use here. Its `forEach` is taken to visit a copy of the set, so `computeChanges` may remove members while visiting them without skipping any.
- `hasOtherSideFor` is called by the getter but defined nowhere in these files. It is modelled as "`getOtherSideFor` gives a record" (`Relationship.HasOtherSideFor`).
- Relationships.Relationship.AddRecord: a call that would dereference null is excluded by precondition (`CanAdd`). The source throws a TypeError only after it has already changed `originalRecord` and `members`, and that partial update is not modelled.
- Relationships.Relationship.RemoveRecord: likewise excluded by `CanRemove`. `OneToOne.removeRecord` throws only after `members.remove(record)` has run (line 149), and `OneToNone.removeRecord` only after `inverseRecord = null` (line 177).
- Relationships.Relationship.ComputeChanges: the invariant is promised for the has-many variants only. On a one-to-one or one-to-none relationship, `computeChanges` rewrites `members` and leaves the slots alone (lines 26 and 32). So it can break the agreement between members and slots, as the source does.
- BelongsToAccessor.SetBelongsTo: `NullReference` stands for the TypeError. The model checks before calling `addRecord`/`removeRecord`, so it does not reproduce the partial updates the code makes before throwing, nor the tables as left by the throw.
- BelongsToAccessor.AttachValue: like the setter, its log is stated only as ending with the final `addRecord`'s notifications.
- BelongsToAccessor.SetBelongsTo: the log is stated as the first removal's notifications followed, at the end, by the final `addRecord`'s notifications. The direct assignments and the inverse's `addRecord` in between are not stated as log entries. Their effect on the tables is stated in full: the entries at `key` and at the value's inverse name hold the final relationship, and every other entry is as the removal's and the final `addRecord`'s notifications leave it.
- `getManyArray`, `updateData`, `updateRecordsFromServer`, link coalescing, a type-mismatch check on `OneToMany` and a true many-to-many relationship do not occur in these files and are not modelled.

=== FILE: belongs_to.dfy ===
/**
 * The synchronous `belongsTo` accessor: its setter wires one relationship into the
 * `_relationships` tables of the record and of the value assigned, and its getter
 * reads the other side back. The tables and the notifications they receive live in
 * `RecordModel.Records`; the relationships are `Relationships.Relationship` objects.
 */
module BelongsToAccessor {
  import opened Wrappers
  import opened RecordModel
  import opened Relationships

  /** The relationship stored at `record._relationships[key]`, as a set of at most one object. */
  function RelAt(t: Tables<Relationship>, record: RecordId, key: Key): (rels: set<Relationship>)
    ensures |rels| <= 1 && (Lookup(t, record, key).Some? ==> Lookup(t, record, key).value in rels)
  {
    if Lookup(t, record, key).Some? then {Lookup(t, record, key).value} else {}
  }

  /** The relationship stored at `record._relationships[key]`, if any, keeps its invariant. */
  ghost predicate ValidAt(t: Tables<Relationship>, record: RecordId, key: Key)
    reads RelAt(t, record, key)
  {
    Lookup(t, record, key).Some? ==> Lookup(t, record, key).value.Valid()
  }

  /** `log` ends with the notifications `evs`. */
  ghost predicate EndsWith(log: seq<Event>, evs: seq<Event>) {
    |evs| <= |log| && log[|log| - |evs|..] == evs
  }

  /** What the setter does: return the value it was given, or dereference null and throw. */
  datatype SetResult = Returned(value: Option<RecordId>) | NullReference

  /** The setter's first step, `removeRecord(self)` on what `key` holds, does not dereference null. */
  predicate RemovalProceeds(t: Tables<Relationship>, self: RecordId, key: Key)
    reads RelAt(t, self, key)
  {
    Lookup(t, self, key).None? || CanRemove(Lookup(t, self, key).value.Cfg(), Lookup(t, self, key).value.State())
  }

  /** The configuration and state of the relationship `v` holds at the inverse name, if any. */
  function HeldAt(t: Tables<Relationship>, v: RecordId, inverse: Option<Inverse>): Option<(Config, RelState)>
    reads if inverse.Some? then RelAt(t, v, inverse.value.name) else {}
  {
    if inverse.None? || Lookup(t, v, inverse.value.name).None? then None
    else Some((Lookup(t, v, inverse.value.name).value.Cfg(), Lookup(t, v, inverse.value.name).value.State()))
  }

  /**
   * `HeldAt` as it is once the setter's first step has removed `self` from the relationship
   * at `key`: that removal may clear `v`'s entry, or change the very relationship `v` holds.
   */
  ghost function HeldAfterRemoval(t: Tables<Relationship>, self: RecordId, key: Key, v: RecordId, inverse: Option<Inverse>): Option<(Config, RelState)>
    requires RemovalProceeds(t, self, key)
    reads RelAt(t, self, key), if inverse.Some? then RelAt(t, v, inverse.value.name) else {}
  {
    var r0 := Lookup(t, self, key);
    if inverse.None? || Lookup(t, v, inverse.value.name).None? then None
    else if r0.None? then HeldAt(t, v, inverse)
    else
      var held := Lookup(t, v, inverse.value.name).value;
      var st := RemoveStep(r0.value.Cfg(), r0.value, r0.value.State(), self);
      if Lookup(ApplyAll(t, st.events), v, inverse.value.name).None? then None
      else Some((held.Cfg(), if held == r0.value then st.state else held.State()))
  }

  /**
   * Whether the setter's steps for a non-null value `v` dereference null, given `held`, what
   * `v` holds at the inverse name. Only with an inverse: when no relationship exists on
   * either side (the inverse is a has-many and `v` holds nothing, or its entry is `key`
   * itself, just overwritten with null), or when the relationship `v` holds cannot take `self`.
   */
  predicate AttachFails(self: RecordId, key: Key, v: RecordId, inverse: Option<Inverse>, held: Option<(Config, RelState)>) {
    inverse.Some? &&
    if (v, inverse.value.name) == (self, key) || held.None? then inverse.value.kind.HasMany?
    else !CanAdd(held.value.0, held.value.1, self)
  }

  /**
   * The setter branch of the `belongsTo` computed property: `self.key = value`, where
   * `inverse` is what the record type reports as the inverse of `key`.
   *
   * It first removes `self` from the relationship already stored at `key`. A null
   * `value` stops there. Otherwise it stores a relationship created for `self` at `key`;
   * when an inverse exists it adopts the relationship `value` holds at the inverse name,
   * or else stores the new one there too and adds `value` to it with `self` as the
   * existing record. Last, it adds `self` to whatever `key` now holds, with `value`
   * as the existing record. Where the code would dereference null the result is
   * `NullReference`.
   *
   * The ghost outputs name what happened: `removal` is what the first `removeRecord`
   * notified, `rel` the relationship left at `key`, `before` its state before the
   * final `addRecord`, and `adopted` whether it is the one `value` already held.
   */
  method SetBelongsTo(g: Records<Relationship>, self: RecordId, key: Key, value: Option<RecordId>, inverse: Option<Inverse>)
    returns (result: SetResult, ghost removal: seq<Event>, ghost rel: Relationship?, ghost before: RelState, ghost adopted: bool)
    requires g.Valid() && ValidAt(g.tables, self, key)
    requires value.Some? && inverse.Some? ==> ValidAt(g.tables, value.value, inverse.value.name)
    modifies g, RelAt(g.tables, self, key)
    modifies if value.Some? && inverse.Some? then RelAt(g.tables, value.value, inverse.value.name) else {}
    ensures g.Valid()
    ensures result.Returned? ==> result.value == value
    // the relationship already at `key` is asked to remove `self` before anything else happens
    ensures var r0 := Lookup(old(g.tables), self, key);
      && (r0.None? ==> removal == [])
      && (r0.Some? && result.Returned? ==>
            CanRemove(r0.value.Cfg(), old(r0.value.State())) &&
            removal == RemoveStep(r0.value.Cfg(), r0.value, old(r0.value.State()), self).events)
      && (result.Returned? ==> old(g.log) + removal <= g.log)
    // a null value: the removal is all that happens
    ensures value.None? ==>
      && (result.NullReference? <==> Lookup(old(g.tables), self, key).Some? && !CanRemove(Lookup(old(g.tables), self, key).value.Cfg(), old(Lookup(g.tables, self, key).value.State())))
      && (result.Returned? ==> g.log == old(g.log) + removal && g.tables == ApplyAll(old(g.tables), removal))
    // a value: `key` ends up holding a relationship to which `self` was added last
    ensures value.Some? && result.Returned? ==>
      && rel != null && rel.Valid()
      && Lookup(g.tables, self, key) == Some(rel)
      && CanAdd(rel.Cfg(), before, self)
      && var st := AddStep(rel.Cfg(), rel, before, self, value);
         rel.State() == st.state && EndsWith(g.log, st.events)
    // the relationship at `key` is a new one created for `self`, unless it was adopted from `value`
    ensures value.Some? && result.Returned? && !adopted ==>
      fresh(rel) && VariantFor(Meta(BelongsTo, key), inverse) == Some(rel.kind) && rel.hasManyRecord == self && rel.manyName == key
    ensures value.Some? && result.Returned? && adopted ==>
      inverse.Some? && Lookup(old(g.tables), value.value, inverse.value.name) == Some(rel)
    // with an inverse both records' tables share the one relationship: the value's own, or a new one-to-one
    ensures value.Some? && inverse.Some? && result.Returned? ==>
      && Lookup(g.tables, value.value, inverse.value.name) == Some(rel)
      && (!adopted ==> rel.kind.OneToOne? && self in rel.members && value.value in rel.members)
      && (inverse.value.kind.HasMany? ==> adopted)
    // without an inverse a new one-way relationship is created, holding `self` in its inverse slot
    ensures value.Some? && inverse.None? && result.Returned? ==>
      !adopted && rel.kind.OneToNone? && rel.inverseRecord == Some(self)
    // a value is rejected exactly where the removal, or the steps after it, dereference null
    ensures value.Some? ==>
      (result.NullReference? <==>
         !old(RemovalProceeds(g.tables, self, key)) ||
         AttachFails(self, key, value.value, inverse, old(HeldAfterRemoval(g.tables, self, key, value.value, inverse))))
    // a relationship the value still holds at the inverse name after the removal is adopted
    ensures (value.Some? && inverse.Some? && old(RemovalProceeds(g.tables, self, key)) &&
             (value.value, inverse.value.name) != (self, key) &&
             Lookup(ApplyAll(old(g.tables), removal), value.value, inverse.value.name).Some?) ==>
      adopted && Some(rel) == Lookup(ApplyAll(old(g.tables), removal), value.value, inverse.value.name)
    // reading back: a new one-to-one gives the value; a belongsTo without inverse gives null
    ensures value.Some? && inverse.Some? && result.Returned? && !adopted && self != value.value ==>
      GetBelongsTo(g.tables, self, key, None) == Other(value)
    ensures value.Some? && inverse.None? && result.Returned? ==>
      GetBelongsTo(g.tables, self, key, None) == Other(None)
    // the last `addRecord` starts from the adopted relationship as the removal left it, or from the linked new one
    ensures value.Some? && result.Returned? && adopted ==>
      old(RemovalProceeds(g.tables, self, key)) &&
      old(HeldAfterRemoval(g.tables, self, key, value.value, inverse)) == Some((rel.Cfg(), before))
    ensures value.Some? && result.Returned? && !adopted ==> before == LinkedState(rel, self, value.value, inverse)
    // the relationship previously at `key`, unless it is the one `key` ends up holding, is left as the removal left it
    ensures var r0 := Lookup(old(g.tables), self, key);
      r0.Some? && result.Returned? && (value.None? || r0.value != rel) ==>
        r0.value.State() == RemoveStep(r0.value.Cfg(), r0.value, old(r0.value.State()), self).state
    // every other entry is as the removal's and then the final `addRecord`'s notifications leave it
    ensures value.Some? && result.Returned? ==>
      forall r: RecordId, k: Key :: (r, k) != (self, key) && (inverse.None? || (r, k) != (value.value, inverse.value.name)) ==>
        Lookup(g.tables, r, k) == Lookup(ApplyAll(ApplyAll(old(g.tables), removal), AddStep(rel.Cfg(), rel, before, self, value).events), r, k)
  {
    rel, before, adopted := null, RelState([], None, None), false;
    var removed;
    removed, removal := RemoveFromCurrent(g, self, key);
    if !removed {
      return NullReference, removal, rel, before, adopted;
    }
    if value.None? {
      return Returned(value), removal, rel, before, adopted;
    }
    if inverse.Some? {
      ApplyAllClears(old(g.tables), removal, value.value, inverse.value.name);
    }
    assert HeldAt(g.tables, value.value, inverse) == old(HeldAfterRemoval(g.tables, self, key, value.value, inverse));
    label linking:
    result, rel, before, adopted := AttachValue(g, self, key, value.value, inverse);
    assert result.Returned? && adopted ==>
      old@linking(HeldAt(g.tables, value.value, inverse)) == Some((rel.Cfg(), before));
  }

  /**
   * The setter's steps for a non-null value `v`: store a relationship created for `self`
   * at `key`, link it with `v` when `key` has an inverse, and add `self` to whatever
   * `key` then holds, with `v` as the existing record.
   */
  method AttachValue(g: Records<Relationship>, self: RecordId, key: Key, v: RecordId, inverse: Option<Inverse>)
    returns (result: SetResult, ghost rel: Relationship?, ghost before: RelState, ghost adopted: bool)
    requires g.Valid()
    requires inverse.Some? ==> ValidAt(g.tables, v, inverse.value.name)
    modifies g, if inverse.Some? then RelAt(g.tables, v, inverse.value.name) else {}
    ensures g.Valid() && old(g.log) <= g.log
    ensures result.Returned? ==>
      && result.value == Some(v)
      && rel != null && rel.Valid()
      && Lookup(g.tables, self, key) == Some(rel)
      && CanAdd(rel.Cfg(), before, self)
      && var st := AddStep(rel.Cfg(), rel, before, self, Some(v));
         rel.State() == st.state && EndsWith(g.log, st.events)
    ensures result.Returned? && !adopted ==>
      fresh(rel) && VariantFor(Meta(BelongsTo, key), inverse) == Some(rel.kind) && rel.hasManyRecord == self && rel.manyName == key
    ensures result.Returned? && adopted ==> inverse.Some? && Lookup(old(g.tables), v, inverse.value.name) == Some(rel)
    ensures inverse.Some? && result.Returned? ==>
      && Lookup(g.tables, v, inverse.value.name) == Some(rel)
      && (!adopted ==> rel.kind.OneToOne? && self in rel.members && v in rel.members)
      && (inverse.value.kind.HasMany? ==> adopted)
    ensures inverse.None? && result.Returned? ==>
      !adopted && rel.kind.OneToNone? && rel.inverseRecord == Some(self)
    // the steps dereference null exactly where no relationship exists or the value's own cannot take `self`
    ensures result.NullReference? <==> AttachFails(self, key, v, inverse, old(HeldAt(g.tables, v, inverse)))
    // a relationship the value already holds at the inverse name is adopted
    ensures inverse.Some? && (v, inverse.value.name) != (self, key) && Lookup(old(g.tables), v, inverse.value.name).Some? ==>
      adopted && Some(rel) == Lookup(old(g.tables), v, inverse.value.name)
    // the last `addRecord` starts from the adopted relationship's own state, or from the linked new one
    ensures result.Returned? && adopted ==> before == old(rel.State())
    ensures result.Returned? && !adopted ==> before == LinkedState(rel, self, v, inverse)
    // a relationship the value held is changed only by being adopted
    ensures inverse.Some? && Lookup(old(g.tables), v, inverse.value.name).Some? &&
            Lookup(old(g.tables), v, inverse.value.name).value != rel ==>
      unchanged(Lookup(old(g.tables), v, inverse.value.name).value)
    // reading back: a new one-to-one gives the value; a belongsTo without inverse gives null
    ensures inverse.Some? && result.Returned? && !adopted && self != v ==>
      GetBelongsTo(g.tables, self, key, None) == Other(Some(v))
    ensures inverse.None? && result.Returned? ==>
      GetBelongsTo(g.tables, self, key, None) == Other(None)
    // every other entry is as the final `addRecord`'s notifications leave it
    ensures result.Returned? ==>
      forall r: RecordId, k: Key :: (r, k) != (self, key) && (inverse.None? || (r, k) != (v, inverse.value.name)) ==>
        Lookup(g.tables, r, k) == Lookup(ApplyAll(old(g.tables), AddStep(rel.Cfg(), rel, before, self, Some(v)).events), r, k)
  {
    rel, before, adopted := null, RelState([], None, None), false;
    var owner;
    owner, adopted := StoreAndLink(g, self, key, v, inverse);
    if owner == null {
      return NullReference, rel, before, adopted;
    }
    rel := owner;
    ghost var t2, log2 := g.tables, g.log;
    var added;
    added, before := AddToStored(g, owner, self, key, v, if inverse.Some? then Some(inverse.value.name) else None);
    if !added {
      return NullReference, rel, before, adopted;
    }
    result := Returned(Some(v));
    ghost var evs := AddStep(rel.Cfg(), rel, before, self, Some(v)).events;
    ApplyAllAppend(g.initial, log2, evs);
    forall r: RecordId, k: Key | (r, k) != (self, key) && (inverse.None? || (r, k) != (v, inverse.value.name))
      ensures Lookup(g.tables, r, k) == Lookup(ApplyAll(old(g.tables), evs), r, k)
    {
      ApplyAllAgree(t2, old(g.tables), evs, r, k);
    }
    if inverse.Some? && !adopted && self != v {
      GetLinkedOneToOne(g.tables, self, key, rel, v);
    }
    if inverse.None? {
      GetOneWay(g.tables, self, key, rel, None);
    }
  }

  /**
   * The state a relationship newly created for `self` is in once the setter has linked it:
   * with an inverse, `v` has been added to it with `self` as the existing record.
   */
  function LinkedState(rel: Relationship, self: RecordId, v: RecordId, inverse: Option<Inverse>): RelState {
    if inverse.Some? then AddStep(rel.Cfg(), rel, Initial(rel.Cfg()), v, Some(self)).state else Initial(rel.Cfg())
  }

  /**
   * The setter's steps for a non-null value `v` before its last `addRecord`: store a
   * relationship created for `self` at `key` and, when `key` has an inverse, link it with
   * `v`. The result is the relationship `key` then holds, or null where none exists;
   * `adopted` says whether it is the one `v` already held.
   */
  method StoreAndLink(g: Records<Relationship>, self: RecordId, key: Key, v: RecordId, inverse: Option<Inverse>)
    returns (owner: Relationship?, ghost adopted: bool)
    requires g.Valid()
    requires inverse.Some? ==> ValidAt(g.tables, v, inverse.value.name)
    modifies g, if inverse.Some? then RelAt(g.tables, v, inverse.value.name) else {}
    ensures g.Valid() && old(g.log) <= g.log
    ensures owner == null <==>
      inverse.Some? && inverse.value.kind.HasMany? &&
      ((v, inverse.value.name) == (self, key) || Lookup(old(g.tables), v, inverse.value.name).None?)
    ensures owner != null ==>
      && owner.Valid()
      && Lookup(g.tables, self, key) == Some(owner)
      && (inverse.Some? ==> Lookup(g.tables, v, inverse.value.name) == Some(owner))
      && (CanAdd(owner.Cfg(), owner.State(), self) <==> !AttachFails(self, key, v, inverse, old(HeldAt(g.tables, v, inverse))))
    ensures owner != null && !adopted ==>
      fresh(owner) && VariantFor(Meta(BelongsTo, key), inverse) == Some(owner.kind) && owner.hasManyRecord == self && owner.manyName == key
    ensures owner != null && adopted ==> inverse.Some? && Lookup(old(g.tables), v, inverse.value.name) == Some(owner)
    ensures inverse.Some? && owner != null && !adopted ==>
      owner.kind.OneToOne? && self in owner.members && v in owner.members
    ensures inverse.None? ==> owner != null && !adopted && owner.kind.OneToNone?
    ensures inverse.Some? && (v, inverse.value.name) != (self, key) && Lookup(old(g.tables), v, inverse.value.name).Some? ==>
      adopted && Some(owner) == Lookup(old(g.tables), v, inverse.value.name)
    // an adopted relationship is left as it was; a new one is in the state linking `v` leaves
    ensures owner != null && adopted ==> owner.State() == old(owner.State())
    ensures owner != null && !adopted ==> owner.State() == LinkedState(owner, self, v, inverse)
    // a relationship the value held is changed only by being adopted
    ensures inverse.Some? && Lookup(old(g.tables), v, inverse.value.name).Some? &&
            Lookup(old(g.tables), v, inverse.value.name).value != owner ==>
      unchanged(Lookup(old(g.tables), v, inverse.value.name).value)
    // no entry changes but the one at `key` and the value's at the inverse name
    ensures forall r: RecordId, k: Key :: (r, k) != (self, key) && (inverse.None? || (r, k) != (v, inverse.value.name)) ==>
      Lookup(g.tables, r, k) == Lookup(old(g.tables), r, k)
  {
    adopted := false;
    var created := CreateRelationshipFor(self, Meta(BelongsTo, key), inverse);
    g.Assign(self, key, if created == null then None else Some(created));
    owner := created;
    if inverse.Some? {
      var name := inverse.value.name;
      ghost var held := Lookup(g.tables, v, name);
      assert held == if (v, name) == (self, key) then Lookup(g.tables, self, key) else Lookup(old(g.tables), v, name);
      assert held.Some? && held != Lookup(g.tables, self, key) ==> held.value != created;
      owner := LinkInverse(g, self, key, v, name, created);
      adopted := owner != created;
      if owner != null && !adopted && (v, name) == (self, key) {
        OneToOneAddMember(owner.Cfg(), owner, Initial(owner.Cfg()), v, Some(self));
      }
    }
  }

  /**
   * The setter's last step: `addRecord(self, v)` on the relationship `key` holds. It
   * leaves that relationship in place at `key` and, if given, at `v`'s inverse `name`.
   * `added` is false where `addRecord` would dereference a null slot.
   */
  method AddToStored(g: Records<Relationship>, owner: Relationship, self: RecordId, key: Key, v: RecordId, name: Option<Key>)
    returns (added: bool, ghost before: RelState)
    requires g.Valid() && owner.Valid()
    requires Lookup(g.tables, self, key) == Some(owner)
    requires name.Some? ==> Lookup(g.tables, v, name.value) == Some(owner)
    modifies g, owner
    ensures g.Valid() && owner.Valid()
    ensures before == old(owner.State())
    ensures added <==> CanAdd(owner.Cfg(), before, self)
    ensures !added ==> g.log == old(g.log) && g.tables == old(g.tables) && owner.State() == before
    ensures owner.kind.OneToOne? && self in before.members ==> added && owner.State() == before
    ensures added ==>
      && Lookup(g.tables, self, key) == Some(owner)
      && (name.Some? ==> Lookup(g.tables, v, name.value) == Some(owner))
      && var st := AddStep(owner.Cfg(), owner, before, self, Some(v));
         owner.State() == st.state && g.log == old(g.log) + st.events && EndsWith(g.log, st.events)
    ensures old(g.log) <= g.log
  {
    before := owner.State();
    if !CanAdd(owner.Cfg(), owner.State(), self) {
      return false, before;
    }
    ghost var t3 := g.tables;
    if owner.kind.OneToOne? && self in before.members {
      OneToOneAddMember(owner.Cfg(), owner, before, self, Some(v));
    }
    AddEventsPreserve(owner.Cfg(), owner, before, self, Some(v));
    owner.AddRecord(g, self, Some(v));
    ghost var evs := AddStep(owner.Cfg(), owner, before, self, Some(v)).events;
    ApplyAllKeeps(t3, evs, owner, self, key);
    if name.Some? {
      ApplyAllKeeps(t3, evs, owner, v, name.value);
    }
    added := true;
  }

  /**
   * The setter's first step: the relationship stored at `key`, if any, removes `self`.
   * `removed` is false where its `removeRecord` would dereference a null original record.
   */
  method RemoveFromCurrent(g: Records<Relationship>, self: RecordId, key: Key) returns (removed: bool, ghost removal: seq<Event>)
    requires g.Valid() && ValidAt(g.tables, self, key)
    modifies g, RelAt(g.tables, self, key)
    ensures g.Valid() && ValidAt(old(g.tables), self, key)
    ensures var r0 := Lookup(old(g.tables), self, key);
      && (removed <==> r0.None? || CanRemove(r0.value.Cfg(), old(r0.value.State())))
      && (r0.None? ==> removal == [])
      && (r0.Some? && removed ==>
            var st := RemoveStep(r0.value.Cfg(), r0.value, old(r0.value.State()), self);
            removal == st.events && r0.value.State() == st.state)
    ensures removed ==> g.log == old(g.log) + removal && g.tables == ApplyAll(old(g.tables), removal)
    ensures forall i :: 0 <= i < |removal| ==> removal[i].BelongsToRemoved? || removal[i].HasManyRemoved?
  {
    var cur := Lookup(g.tables, self, key);
    removal := [];
    if cur.Some? {
      if !CanRemove(cur.value.Cfg(), cur.value.State()) {
        return false, removal;
      }
      removal := RemoveStep(cur.value.Cfg(), cur.value, cur.value.State(), self).events;
      cur.value.RemoveRecord(g, self);
    }
    removed := true;
  }

  /**
   * The part of the setter that runs when `key` has an inverse `name`: `self` adopts the
   * relationship `v` holds at `name` (the table entry for `key` is overwritten with it);
   * when `v` holds none, `v`'s entry is pointed at `created`, the relationship just stored
   * for `self`, and `v` is added to it with `self` as the existing record. The result is
   * the relationship `key` now holds, or null where the code would call `addRecord` on null.
   */
  method LinkInverse(g: Records<Relationship>, self: RecordId, key: Key, v: RecordId, name: Key, created: Relationship?)
    returns (owner: Relationship?)
    requires g.Valid() && ValidAt(g.tables, v, name)
    requires Lookup(g.tables, self, key) == (if created == null then None else Some(created))
    requires created != null ==>
      && created.Valid() && created.kind == OneToOne(name) && created.hasManyRecord == self && created.manyName == key
      && created.State() == Initial(created.Cfg())
    requires created != null && Lookup(g.tables, v, name) == Some(created) ==> v == self
    modifies g, RelAt(g.tables, v, name), if created == null then {} else {created}
    ensures g.Valid() && old(g.log) <= g.log
    ensures owner == null <==> Lookup(old(g.tables), v, name).None? && created == null
    ensures owner != null ==>
      && owner.Valid()
      && Lookup(g.tables, self, key) == Some(owner)
      && Lookup(g.tables, v, name) == Some(owner)
    // the value's own relationship is adopted as it is
    ensures Lookup(old(g.tables), v, name).Some? ==>
      owner == Lookup(old(g.tables), v, name).value && g.tables == Put(old(g.tables), self, key, Some(owner))
      && g.log == old(g.log) + [Assigned(self, key, Some(owner))]
      && owner.State() == old(owner.State())
    // otherwise the value's entry is pointed at the new relationship, and the value is added to it
    ensures Lookup(old(g.tables), v, name).None? ==> owner == created
    ensures Lookup(old(g.tables), v, name).None? && created == null ==>
      g.tables == Put(old(g.tables), v, name, None) && g.log == old(g.log) + [Assigned(v, name, None)]
    ensures Lookup(old(g.tables), v, name).None? && created != null ==>
      var st := AddStep(created.Cfg(), created, old(created.State()), v, Some(self));
      && created.State() == st.state
      && g.log == old(g.log) + [Assigned(v, name, Some(created))] + st.events
      && g.tables == ApplyAll(Put(old(g.tables), v, name, Some(created)), st.events)
    ensures owner != null ==> owner == created || Lookup(old(g.tables), v, name) == Some(owner)
    ensures owner != null && owner == created ==> self in owner.members && v in owner.members
    // no other entry changes
    ensures forall r: RecordId, k: Key :: (r, k) != (self, key) && (r, k) != (v, name) ==> Lookup(g.tables, r, k) == Lookup(old(g.tables), r, k)
  {
    var other := Lookup(g.tables, v, name);
    if other.Some? {
      g.Assign(self, key, other);
      owner := other.value;
      return;
    }
    g.Assign(v, name, if created == null then None else Some(created));
    if created == null {
      return null;
    }
    ghost var t2, log2 := g.tables, g.log;
    AddEventsPreserve(created.Cfg(), created, created.State(), v, Some(self));
    OneToOneFillsInverseOrHolds(created, v);
    created.AddRecord(g, v, Some(self));
    ghost var evs := AddStep(created.Cfg(), created, Initial(created.Cfg()), v, Some(self)).events;
    AppendAssoc(old(g.log), [Assigned(v, name, Some(created))], evs);
    ApplyAllKeeps(t2, evs, created, self, key);
    ApplyAllKeeps(t2, evs, created, v, name);
    LinkingFrame(old(g.tables), created, self, key, v, name);
    owner := created;
  }

  /**
   * Linking a new one-to-one relationship for `self` at `key` with `v` at `name` writes
   * only those two entries.
   */
  lemma LinkingFrame(t: Tables<Relationship>, created: Relationship, self: RecordId, key: Key, v: RecordId, name: Key)
    requires created.kind == OneToOne(name) && created.hasManyRecord == self && created.manyName == key
    ensures var st := AddStep(created.Cfg(), created, Initial(created.Cfg()), v, Some(self));
      forall r: RecordId, k: Key :: (r, k) != (self, key) && (r, k) != (v, name) ==>
        Lookup(ApplyAll(Put(t, v, name, Some(created)), st.events), r, k) == Lookup(t, r, k)
  {
    var evs := AddStep(created.Cfg(), created, Initial(created.Cfg()), v, Some(self)).events;
    var linking: seq<Event> := [BelongsToAdded(v, name, created), BelongsToAdded(self, key, created)];
    assert v != self ==> evs == linking;
    forall r: RecordId, k: Key | (r, k) != (self, key) && (r, k) != (v, name)
      ensures Lookup(ApplyAll(Put(t, v, name, Some(created)), evs), r, k) == Lookup(t, r, k)
    {
      ApplyAllFrame(Put(t, v, name, Some(created)), evs, r, k);
    }
  }

  /**
   * A new one-to-one relationship created for `self` and then given `v`: afterwards both
   * are members (`v` fills the inverse slot, or is `self` already).
   */
  lemma OneToOneFillsInverseOrHolds(rel: Relationship, v: RecordId)
    requires rel.kind.OneToOne? && rel.State() == Initial(rel.Cfg())
    ensures CanAdd(rel.Cfg(), rel.State(), v)
    ensures var t := AddStep(rel.Cfg(), rel, rel.State(), v, Some(rel.hasManyRecord)).state;
      rel.hasManyRecord in t.members && v in t.members
  {
    var c, s := rel.Cfg(), rel.State();
    if v !in s.members {
      OneToOneFillsInverse(c, rel, s, v, Some(rel.hasManyRecord));
    }
  }

  /**
   * Reading back a one-to-one link: when the relationship at `key` holds `self` and another
   * record `v`, the getter gives `v`.
   */
  lemma GetLinkedOneToOne(t: Tables<Relationship>, self: RecordId, key: Key, rel: Relationship, v: RecordId)
    requires Lookup(t, self, key) == Some(rel) && rel.Valid() && rel.kind.OneToOne?
    requires self in rel.members && v in rel.members && self != v
    ensures GetBelongsTo(t, self, key, None) == Other(Some(v))
  {
    assert InSlot(rel.State(), self) && InSlot(rel.State(), v);
  }

  /**
   * A belongsTo without inverse never reads back a record: its relationship has no other
   * side, so the getter falls through to the link, or to null.
   */
  lemma GetOneWay(t: Tables<Relationship>, self: RecordId, key: Key, rel: Relationship, link: Option<string>)
    requires Lookup(t, self, key) == Some(rel) && rel.kind.OneToNone?
    ensures GetBelongsTo(t, self, key, link) == if link.Some? then FetchLink(link.value) else Other(None)
  {
  }

  /** What the getter returns: the other side's record (or null), or a fetch through the link. */
  datatype GetResult = Other(record: Option<RecordId>) | FetchLink(link: string)

  /**
   * The getter branch of the `belongsTo` computed property: the other side of the
   * relationship at `key` when there is one, else a fetch through the record's link for
   * `key`, else null.
   */
  function GetBelongsTo(t: Tables<Relationship>, self: RecordId, key: Key, link: Option<string>): (r: GetResult)
    reads RelAt(t, self, key)
    ensures r.Other? && r.record.Some? <==>
      Lookup(t, self, key).Some? && Lookup(t, self, key).value.HasOtherSideFor(self)
    ensures r.Other? && r.record.Some? ==> r.record == Lookup(t, self, key).value.GetOtherSideFor(self)
    ensures r.FetchLink? <==>
      !(Lookup(t, self, key).Some? && Lookup(t, self, key).value.HasOtherSideFor(self)) && link.Some?
    ensures r.FetchLink? ==> Some(r.link) == link
    ensures r == Other(None) <==>
      !(Lookup(t, self, key).Some? && Lookup(t, self, key).value.HasOtherSideFor(self)) && link.None?
  {
    var cur := Lookup(t, self, key);
    if cur.Some? && cur.value.HasOtherSideFor(self) then Other(cur.value.GetOtherSideFor(self))
    else if link.Some? then FetchLink(link.value)
    else Other(None)
  }
}

=== FILE: ordered_set.dfy ===
/**
 * The duplicate-free, insertion-ordered member collection (an `Ember.OrderedSet`)
 * that backs every relationship, modelled as a sequence without repetitions.
 * `add` appends an absent element, `remove` deletes an element in place.
 */
module OrderedSet {

  /** No element occurs twice. */
  ghost predicate Distinct<T>(s: seq<T>) {
    forall i, j :: 0 <= i < j < |s| ==> s[i] != s[j]
  }

  /** In a sequence without repetitions, an element occurs neither before nor after itself. */
  lemma DistinctSplit<T>(a: seq<T>, x: T, b: seq<T>)
    requires Distinct(a + [x] + b)
    ensures x !in a && x !in b
  {
    var s := a + [x] + b;
    assert s[|a|] == x;
    forall k | 0 <= k < |a| ensures a[k] != x {
      assert s[k] == a[k];
    }
    forall k | 0 <= k < |b| ensures b[k] != x {
      assert s[|a| + 1 + k] == b[k];
    }
  }

  /** The elements of `s` as a set. */
  ghost function Elems<T>(s: seq<T>): set<T> {
    set x | x in s
  }

  /** A sequence without repetitions has as many elements as its set. */
  lemma {:induction false} DistinctCard<T>(s: seq<T>)
    requires Distinct(s)
    ensures |Elems(s)| == |s|
  {
    if s != [] {
      assert Distinct(s[1..]);
      DistinctCard(s[1..]);
      assert Elems(s) == {s[0]} + Elems(s[1..]);
      assert s[0] !in Elems(s[1..]);
    }
  }

  /** `OrderedSet.add`: appends `x` unless it is already present. */
  function Insert<T(==,!new)>(s: seq<T>, x: T): (r: seq<T>)
    ensures forall y {:trigger y in r} :: y in r <==> y in s || y == x
    ensures |s| <= |r| <= |s| + 1 && r[..|s|] == s
    ensures Distinct(s) ==> Distinct(r)
  {
    if x in s then s else s + [x]
  }

  /** `OrderedSet.remove`: deletes `x`, keeping the order of the others. */
  function Delete<T(==,!new)>(s: seq<T>, x: T): (r: seq<T>)
    ensures forall y {:trigger y in r} :: y in r <==> y in s && y != x
    ensures |r| <= |s|
    ensures Distinct(s) ==> Distinct(r)
  {
    if s == [] then []
    else if s[0] == x then Delete(s[1..], x)
    else
      var rest := Delete(s[1..], x);
      assert Distinct(s) ==> Distinct(s[1..]) && s[0] !in rest;
      [s[0]] + rest
  }

  /** Deleting an absent element changes nothing. */
  lemma {:induction false} DeleteAbsent<T(!new)>(s: seq<T>, x: T)
    requires x !in s
    ensures Delete(s, x) == s
  {
    if s != [] {
      DeleteAbsent(s[1..], x);
    }
  }

  /** Deleting an element of a set removes exactly its one occurrence. */
  lemma {:induction false} DeleteSplit<T(!new)>(a: seq<T>, x: T, b: seq<T>)
    requires x !in a && x !in b
    ensures Delete(a + [x] + b, x) == a + b
  {
    if a == [] {
      assert a + [x] + b == [x] + b;
      assert ([x] + b)[1..] == b;
      DeleteAbsent(b, x);
    } else {
      assert (a + [x] + b)[0] == a[0];
      assert (a + [x] + b)[1..] == a[1..] + [x] + b;
      DeleteSplit(a[1..], x, b);
      assert [a[0]] + (a[1..] + b) == a + b;
    }
  }

  /** The elements of `s` that occur in `t`, in the order of `s`. */
  function Within<T(==,!new)>(s: seq<T>, t: seq<T>): (r: seq<T>)
    ensures forall y {:trigger y in r} :: y in r <==> y in s && y in t
    ensures Distinct(s) ==> Distinct(r)
  {
    if s == [] then []
    else
      var init, last := s[..|s| - 1], s[|s| - 1];
      assert s == init + [last];
      var rest := Within(init, t);
      assert Distinct(s) ==> Distinct(init) && last !in rest;
      rest + (if last in t then [last] else [])
  }

  /** The elements of `s` that do not occur in `t`, in the order of `s`. */
  function Without<T(==,!new)>(s: seq<T>, t: seq<T>): (r: seq<T>)
    ensures forall y {:trigger y in r} :: y in r <==> y in s && y !in t
    ensures Distinct(s) ==> Distinct(r)
  {
    if s == [] then []
    else
      var init, last := s[..|s| - 1], s[|s| - 1];
      assert s == init + [last];
      var rest := Without(init, t);
      assert Distinct(s) ==> Distinct(init) && last !in rest;
      rest + (if last !in t then [last] else [])
  }

  /** Keeping one more element at the end extends the result by it, if it occurs in `t`. */
  lemma WithinSnoc<T(!new)>(s: seq<T>, x: T, t: seq<T>)
    ensures Within(s + [x], t) == Within(s, t) + (if x in t then [x] else [])
  {
    assert (s + [x])[..|s|] == s;
  }

  /** Filtering one more element at the end extends the result by it, if it does not occur in `t`. */
  lemma WithoutSnoc<T(!new)>(s: seq<T>, x: T, t: seq<T>)
    ensures Without(s + [x], t) == Without(s, t) + (if x !in t then [x] else [])
  {
    assert (s + [x])[..|s|] == s;
  }

  /** Filtering distributes over concatenation. */
  lemma {:induction false} WithoutAppend<T(!new)>(a: seq<T>, b: seq<T>, t: seq<T>)
    ensures Without(a + b, t) == Without(a, t) + Without(b, t)
  {
    if b != [] {
      var init := b[..|b| - 1];
      assert (a + b)[..|a + b| - 1] == a + init;
      WithoutAppend(a, init, t);
    } else {
      assert a + b == a;
    }
  }

  /** Filtering out a superset of `s` leaves nothing. */
  lemma {:induction false} WithoutCovered<T(!new)>(s: seq<T>, t: seq<T>)
    requires forall y :: y in s ==> y in t
    ensures Without(s, t) == []
  {
    if s != [] {
      WithoutCovered(s[..|s| - 1], t);
      assert s[|s| - 1] in s;
    }
  }

  /** Filtering depends only on the elements of the filter, not on their order or repetition. */
  lemma {:induction false} FilterSameElems<T(!new)>(s: seq<T>, t: seq<T>, u: seq<T>)
    requires forall y :: y in t <==> y in u
    ensures Without(s, t) == Without(s, u) && Within(s, t) == Within(s, u)
  {
    if s != [] {
      FilterSameElems(s[..|s| - 1], t, u);
    }
  }

  /** Keeping only elements of `t` leaves a sequence drawn from `t` as it is. */
  lemma {:induction false} WithinSubset<T(!new)>(s: seq<T>, t: seq<T>)
    requires forall y :: y in s ==> y in t
    ensures Within(s, t) == s
  {
    if s != [] {
      WithinSubset(s[..|s| - 1], t);
      assert s == s[..|s| - 1] + [s[|s| - 1]];
    }
  }

  /** Keeping distributes over concatenation. */
  lemma {:induction false} WithinAppend<T(!new)>(a: seq<T>, b: seq<T>, t: seq<T>)
    ensures Within(a + b, t) == Within(a, t) + Within(b, t)
  {
    if b != [] {
      var init := b[..|b| - 1];
      assert (a + b)[..|a + b| - 1] == a + init;
      WithinAppend(a, init, t);
    } else {
      assert a + b == a;
    }
  }

  /** `setForArray`: the elements of `s`, each once, in order of first occurrence. */
  function Dedup<T(==,!new)>(s: seq<T>): (r: seq<T>)
    ensures forall y {:trigger y in r} :: y in r <==> y in s
    ensures Distinct(r)
  {
    if s == [] then [] else Insert(Dedup(s[..|s| - 1]), s[|s| - 1])
  }

  /** Collapsing duplicates of a sequence that has none gives it back unchanged. */
  lemma {:induction false} DedupDistinct<T(!new)>(s: seq<T>)
    requires Distinct(s)
    ensures Dedup(s) == s
  {
    if s != [] {
      var init := s[..|s| - 1];
      assert Distinct(init);
      DedupDistinct(init);
      assert s[|s| - 1] !in init;
      assert init + [s[|s| - 1]] == s;
    }
  }
}

=== FILE: records.dfy ===
/**
 * The records a relationship links, as far as the relationship engine sees them:
 * an identity, and a per-record table `_relationships` from relationship key to the
 * relationship object currently stored there (or nothing). The four notification
 * entry points are the only way a relationship talks to a record.
 *
 * The relationship type is a parameter `R` here so that this module does not depend
 * on the module that defines relationships.
 */
module RecordModel {
  import opened Wrappers

  /** A record, compared by identity; the id stands for the object reference. */
  type RecordId = nat

  /** A relationship key (the declared property name, e.g. `post` or `comments`). */
  type Key = string

  /** Every record's `_relationships` table. An absent entry reads as `null`. */
  type Tables<R> = map<RecordId, map<Key, Option<R>>>

  /**
   * One call from a relationship into a record, or (`Assigned`) an entry the belongsTo
   * setter writes into a table itself.
   */
  datatype Notification<R> =
    | BelongsToAdded(target: RecordId, key: Key, rel: R)
    | BelongsToRemoved(target: RecordId, key: Key)
    | HasManyAdded(target: RecordId, key: Key, member: RecordId)
    | HasManyRemoved(target: RecordId, key: Key, member: RecordId)
    | Assigned(target: RecordId, key: Key, value: Option<R>)

  /** `record._relationships[key]`, `None` for `null` or `undefined`. */
  function Lookup<R>(t: Tables<R>, record: RecordId, key: Key): Option<R> {
    if record in t && key in t[record] then t[record][key] else None
  }

  /** `record._relationships[key] = v`: one entry is overwritten and no other. */
  function Put<R>(t: Tables<R>, record: RecordId, key: Key, v: Option<R>): (t': Tables<R>)
    ensures Lookup(t', record, key) == v
    ensures forall r: RecordId, k: Key :: (r, k) != (record, key) ==> Lookup(t', r, k) == Lookup(t, r, k)
  {
    var row := if record in t then t[record] else map[];
    t[record := row[key := v]]
  }

  /** What receiving a notification does to the tables. */
  function Apply<R>(t: Tables<R>, n: Notification<R>): Tables<R> {
    match n
    case BelongsToAdded(target, key, rel) => Put(t, target, key, Some(rel))
    case BelongsToRemoved(target, key) => Put(t, target, key, None)
    case HasManyAdded(_, _, _) => t
    case HasManyRemoved(_, _, _) => t
    case Assigned(target, key, value) => Put(t, target, key, value)
  }

  /** The tables after a sequence of notifications, delivered in order. */
  function ApplyAll<R>(t: Tables<R>, ns: seq<Notification<R>>): Tables<R>
    decreases |ns|
  {
    if ns == [] then t else ApplyAll(Apply(t, ns[0]), ns[1..])
  }

  /** Delivering `a` and then `b` is delivering `a + b`. */
  lemma {:induction false} ApplyAllAppend<R>(t: Tables<R>, a: seq<Notification<R>>, b: seq<Notification<R>>)
    ensures ApplyAll(t, a + b) == ApplyAll(ApplyAll(t, a), b)
    decreases |a|
  {
    if a != [] {
      assert (a + b)[0] == a[0];
      assert (a + b)[1..] == a[1..] + b;
      ApplyAllAppend(Apply(t, a[0]), a[1..], b);
    } else {
      assert a + b == b;
    }
  }

  /** Delivering one more notification. */
  lemma ApplyAllSnoc<R>(t: Tables<R>, ns: seq<Notification<R>>, n: Notification<R>)
    ensures ApplyAll(t, ns + [n]) == Apply(ApplyAll(t, ns), n)
  {
    ApplyAllAppend(t, ns, [n]);
    assert [n][1..] == [];
  }

  /** A notification that cannot overwrite an entry of `record` with anything but `Some(rel)`. */
  ghost predicate Preserves<R>(n: Notification<R>, rel: R, record: RecordId) {
    match n
    case BelongsToAdded(_, _, r) => r == rel
    case BelongsToRemoved(target, _) => target != record
    case HasManyAdded(_, _, _) => true
    case HasManyRemoved(_, _, _) => true
    case Assigned(target, _, value) => target != record || value == Some(rel)
  }

  /**
   * An entry that holds `rel` still holds it after notifications that only store `rel`
   * or clear other records' entries.
   */
  lemma {:induction false} ApplyAllKeeps<R>(t: Tables<R>, ns: seq<Notification<R>>, rel: R, record: RecordId, key: Key)
    requires Lookup(t, record, key) == Some(rel)
    requires forall i :: 0 <= i < |ns| ==> Preserves(ns[i], rel, record)
    ensures Lookup(ApplyAll(t, ns), record, key) == Some(rel)
    decreases |ns|
  {
    if ns != [] {
      assert Preserves(ns[0], rel, record);
      ApplyAllKeeps(Apply(t, ns[0]), ns[1..], rel, record, key);
    }
  }

  /**
   * Removal notifications can only clear entries: every entry is afterwards what it
   * was, or `None`.
   */
  lemma {:induction false} ApplyAllClears<R>(t: Tables<R>, ns: seq<Notification<R>>, record: RecordId, key: Key)
    requires forall i :: 0 <= i < |ns| ==> ns[i].BelongsToRemoved? || ns[i].HasManyRemoved?
    ensures Lookup(ApplyAll(t, ns), record, key) in {Lookup(t, record, key), None}
    decreases |ns|
  {
    if ns != [] {
      ApplyAllClears(Apply(t, ns[0]), ns[1..], record, key);
    }
  }

  /** Whether delivering `n` overwrites the entry of `record` at `key`. */
  predicate Writes<R>(n: Notification<R>, record: RecordId, key: Key) {
    match n
    case BelongsToAdded(target, k, _) => (target, k) == (record, key)
    case BelongsToRemoved(target, k) => (target, k) == (record, key)
    case HasManyAdded(_, _, _) => false
    case HasManyRemoved(_, _, _) => false
    case Assigned(target, k, _) => (target, k) == (record, key)
  }

  /** An entry no notification writes is the same after delivering them all. */
  lemma {:induction false} ApplyAllFrame<R>(t: Tables<R>, ns: seq<Notification<R>>, record: RecordId, key: Key)
    requires forall i :: 0 <= i < |ns| ==> !Writes(ns[i], record, key)
    ensures Lookup(ApplyAll(t, ns), record, key) == Lookup(t, record, key)
    decreases |ns|
  {
    if ns != [] {
      assert !Writes(ns[0], record, key);
      ApplyAllFrame(Apply(t, ns[0]), ns[1..], record, key);
    }
  }

  /** Tables that agree on an entry still agree on it after the same notifications. */
  lemma {:induction false} ApplyAllAgree<R>(t: Tables<R>, u: Tables<R>, ns: seq<Notification<R>>, record: RecordId, key: Key)
    requires Lookup(t, record, key) == Lookup(u, record, key)
    ensures Lookup(ApplyAll(t, ns), record, key) == Lookup(ApplyAll(u, ns), record, key)
    decreases |ns|
  {
    if ns != [] {
      ApplyAllAgree(Apply(t, ns[0]), Apply(u, ns[0]), ns[1..], record, key);
    }
  }

  /** Two notifications appended one at a time are the two appended together. */
  lemma AppendTwo<T>(log: seq<T>, a: T, b: T)
    ensures log + [a] + [b] == log + [a, b]
  {
  }

  /** Three notifications appended one at a time are the three appended together. */
  lemma AppendThree<T>(log: seq<T>, a: T, b: T, c: T)
    ensures log + [a] + [b] + [c] == log + [a, b, c]
  {
  }

  /** Notifications appended in two batches are the two batches appended together. */
  lemma AppendAssoc<T>(log: seq<T>, a: seq<T>, b: seq<T>)
    ensures log + a + b == log + (a + b)
  {
  }

  /**
   * The records' side of the engine: their `_relationships` tables and the notification
   * methods of `Model`. `log` records every notification received and every direct
   * assignment, in order; the tables are always the initial tables with the log applied.
   */
  class Records<R> {
    var tables: Tables<R>
    ghost var log: seq<Notification<R>>
    ghost const initial: Tables<R>

    ghost predicate Valid()
      reads this
    {
      tables == ApplyAll(initial, log)
    }

    constructor (tables: Tables<R>)
      ensures Valid() && this.tables == tables && log == []
    {
      this.tables := tables;
      initial := tables;
      log := [];
    }

    /** Appends `n` to the log and applies it to the tables. */
    method Receive(n: Notification<R>)
      requires Valid()
      modifies this
      ensures Valid()
      ensures tables == Apply(old(tables), n)
      ensures log == old(log) + [n]
    {
      ApplyAllSnoc(initial, log, n);
      tables := Apply(tables, n);
      log := log + [n];
    }

    /** `Model.notifyBelongsToAdded(key, relationship)`. */
    method NotifyBelongsToAdded(record: RecordId, key: Key, rel: R)
      requires Valid()
      modifies this
      ensures Valid()
      ensures tables == Put(old(tables), record, key, Some(rel))
      ensures log == old(log) + [BelongsToAdded(record, key, rel)]
    {
      Receive(BelongsToAdded(record, key, rel));
    }

    /** `Model.notifyBelongsToRemoved(key)`. */
    method NotifyBelongsToRemoved(record: RecordId, key: Key)
      requires Valid()
      modifies this
      ensures Valid()
      ensures tables == Put(old(tables), record, key, None)
      ensures log == old(log) + [BelongsToRemoved(record, key)]
    {
      Receive(BelongsToRemoved(record, key));
    }

    /** `Model.notifyHasManyAdded(key, record)`; its effect on the has-many side is not part of this model. */
    method NotifyHasManyAdded(record: RecordId, key: Key, member: RecordId)
      requires Valid()
      modifies this
      ensures Valid()
      ensures tables == old(tables)
      ensures log == old(log) + [HasManyAdded(record, key, member)]
    {
      Receive(HasManyAdded(record, key, member));
    }

    /** `Model.notifyHasManyRemoved(key, record)`; its effect on the has-many side is not part of this model. */
    method NotifyHasManyRemoved(record: RecordId, key: Key, member: RecordId)
      requires Valid()
      modifies this
      ensures Valid()
      ensures tables == old(tables)
      ensures log == old(log) + [HasManyRemoved(record, key, member)]
    {
      Receive(HasManyRemoved(record, key, member));
    }

    /** A direct assignment `record._relationships[key] = value` made by the belongsTo setter. */
    method Assign(record: RecordId, key: Key, value: Option<R>)
      requires Valid()
      modifies this
      ensures Valid()
      ensures tables == Put(old(tables), record, key, value)
      ensures log == old(log) + [Assigned(record, key, value)]
    {
      Receive(Assigned(record, key, value));
    }
  }
}

=== FILE: relationship.dfy ===
/**
 * The relationship engine: one relationship object links the records on the two sides
 * of an association, keeps its members, and notifies the records it touches.
 *
 * The four variants form a closed `Kind`. What each variant's `addRecord` and
 * `removeRecord` do is stated once, as the functions `AddStep` and `RemoveStep` on an
 * abstract `RelState`; the class `Relationship` below performs the same updates in place
 * and is proved to agree with them.
 */
module Relationships {
  import opened Wrappers
  import opened OrderedSet
  import opened RecordModel

  /** The variants, with the key each fixes at creation besides the owner's. */
  datatype Kind =
    | OneToMany(belongsToName: Key)   // has-many side whose inverse is a belongsTo named belongsToName
    | OneToOne(inverseKey: Key)       // belongsTo whose inverse belongsTo is named inverseKey
    | OneToNone                       // belongsTo without inverse
    | ManyToNone                      // hasMany without inverse

  /**
   * What a relationship never changes: its variant, the record it was created for
   * (`hasManyRecord`, also the first `originalRecord`) and that record's key
   * (`manyName`, which is also `originalKey` in every variant).
   */
  datatype Config = Config(kind: Kind, hasManyRecord: RecordId, manyName: Key)

  /** What a relationship changes: its members and its two slots. */
  datatype RelState = RelState(members: seq<RecordId>, originalRecord: Option<RecordId>, inverseRecord: Option<RecordId>)

  type Event = Notification<Relationship>

  /** The new state after an operation and the notifications it sent, in order. */
  datatype Step = Step(state: RelState, events: seq<Event>)

  /** `x` occupies one of the two slots. */
  predicate InSlot(s: RelState, x: RecordId) {
    s.originalRecord == Some(x) || s.inverseRecord == Some(x)
  }

  /**
   * The invariant every relationship keeps: members form a set; the no-inverse and
   * one-to-many variants keep their owner in the original slot and leave the inverse
   * slot empty (OneToNone uses the inverse slot instead of members); a one-to-one
   * relationship's members are exactly the records in its two distinct slots.
   */
  ghost predicate WellFormed(c: Config, s: RelState) {
    Distinct(s.members) &&
    match c.kind
    case OneToMany(_) => s.originalRecord == Some(c.hasManyRecord) && s.inverseRecord.None?
    case ManyToNone => s.originalRecord == Some(c.hasManyRecord) && s.inverseRecord.None?
    case OneToNone => s.members == [] && s.originalRecord == Some(c.hasManyRecord)
    case OneToOne(_) =>
      (forall x :: x in s.members <==> InSlot(s, x)) &&
      (s.originalRecord.Some? && s.inverseRecord.Some? ==> s.originalRecord != s.inverseRecord)
  }

  /**
   * `addRecord(r)` does not dereference a null slot: a one-to-one relationship that
   * does not hold `r` needs an occupied slot (relationship.js line 144), and OneToNone
   * notifies its original record.
   */
  predicate CanAdd(c: Config, s: RelState, r: RecordId) {
    (c.kind.OneToOne? ==> r in s.members || s.originalRecord.Some? || s.inverseRecord.Some?) &&
    (c.kind.OneToNone? ==> s.originalRecord.Some?)
  }

  /** `removeRecord` notifies `originalRecord` in the one-to-one and no-inverse variants (line 150). */
  predicate CanRemove(c: Config, s: RelState) {
    (c.kind.OneToOne? || c.kind.OneToNone?) ==> s.originalRecord.Some?
  }

  /** The state the constructors leave: a one-to-one relationship starts with its owner as member. */
  function Initial(c: Config): (s: RelState)
    ensures WellFormed(c, s)
    ensures s.originalRecord == Some(c.hasManyRecord) && s.inverseRecord.None?
    ensures c.kind.OneToOne? <==> c.hasManyRecord in s.members
  {
    if c.kind.OneToOne? then RelState([c.hasManyRecord], Some(c.hasManyRecord), None)
    else RelState([], Some(c.hasManyRecord), None)
  }

  /** `addRecord(r, existing)` of each variant; `self` is the relationship passed in notifications. */
  function AddStep(c: Config, self: Relationship, s: RelState, r: RecordId, existing: Option<RecordId>): (st: Step)
    requires CanAdd(c, s, r)
    ensures c.kind.OneToNone? ==> st.state.members == s.members && st.state.inverseRecord == Some(r)
    ensures !c.kind.OneToNone? ==> r in st.state.members
    ensures forall x :: x in st.state.members ==> x in s.members || x == r
  {
    match c.kind
    case OneToMany(belongsToName) =>
      Step(s.(members := Insert(s.members, r)),
           [HasManyAdded(c.hasManyRecord, c.manyName, r), BelongsToAdded(r, belongsToName, self)])
    case ManyToNone =>
      Step(s.(members := Insert(s.members, r)), [HasManyAdded(c.hasManyRecord, c.manyName, r)])
    case OneToNone =>
      Step(s.(inverseRecord := Some(r)), [BelongsToAdded(s.originalRecord.value, c.manyName, self)])
    case OneToOne(_) =>
      OneToOneAdd(c, self, s, r, existing)
  }

  /** `OneToOne.addRecord(r, existing)`, which may evict the slot holder other than `existing`. */
  function OneToOneAdd(c: Config, self: Relationship, s: RelState, r: RecordId, existing: Option<RecordId>): (st: Step)
    requires c.kind.OneToOne? && CanAdd(c, s, r)
    ensures r in st.state.members
    ensures forall x :: x in st.state.members ==> x in s.members || x == r
  {
    var inverseKey := c.kind.inverseKey;
    if r in s.members then Step(s, [])
    else if s.originalRecord.Some? && s.inverseRecord.Some? then
      var original, inverse := s.originalRecord.value, s.inverseRecord.value;
      if existing == s.originalRecord then
        // full: keep the original, evict the inverse
        Step(RelState(Insert(Delete(s.members, inverse), r), s.originalRecord, Some(r)),
             [BelongsToRemoved(inverse, inverseKey),
              BelongsToAdded(r, inverseKey, self), BelongsToAdded(original, c.manyName, self)])
      else
        // full: keep the inverse, evict the original
        Step(RelState(Insert(Delete(s.members, original), r), Some(r), s.inverseRecord),
             [BelongsToRemoved(original, c.manyName),
              BelongsToAdded(inverse, inverseKey, self), BelongsToAdded(r, c.manyName, self)])
    else if s.originalRecord.Some? then
      Step(RelState(Insert(s.members, r), s.originalRecord, Some(r)),
           [BelongsToAdded(r, inverseKey, self), BelongsToAdded(s.originalRecord.value, c.manyName, self)])
    else
      Step(RelState(Insert(s.members, r), Some(r), s.inverseRecord),
           [BelongsToAdded(s.inverseRecord.value, inverseKey, self), BelongsToAdded(r, c.manyName, self)])
  }

  /** `removeRecord(r)` of each variant. */
  function RemoveStep(c: Config, self: Relationship, s: RelState, r: RecordId): (st: Step)
    requires CanRemove(c, s)
    ensures c.kind.OneToNone? ==> st.state.members == s.members && st.state.inverseRecord.None?
    ensures !c.kind.OneToNone? ==> forall x :: x in st.state.members <==> x in s.members && x != r
    ensures forall i :: 0 <= i < |st.events| ==> st.events[i].BelongsToRemoved? || st.events[i].HasManyRemoved?
  {
    match c.kind
    case OneToMany(belongsToName) =>
      Step(s.(members := Delete(s.members, r)),
           [HasManyRemoved(c.hasManyRecord, c.manyName, r), BelongsToRemoved(r, belongsToName)])
    case ManyToNone =>
      Step(s.(members := Delete(s.members, r)), [HasManyRemoved(c.hasManyRecord, c.manyName, r)])
    case OneToNone =>
      Step(s.(inverseRecord := None), [BelongsToRemoved(s.originalRecord.value, c.manyName)])
    case OneToOne(inverseKey) =>
      var original := if s.inverseRecord != Some(r) && s.originalRecord == Some(r) then None else s.originalRecord;
      var inverse := if s.inverseRecord == Some(r) then None else s.inverseRecord;
      Step(RelState(Delete(s.members, r), original, inverse),
           [BelongsToRemoved(s.originalRecord.value, c.manyName)] +
           (if s.inverseRecord.Some? then [BelongsToRemoved(s.inverseRecord.value, inverseKey)] else []))
  }

  /**
   * `addRecords(rs)`: `addRecord` on each record in order, without an existing record;
   * `None` when some `addRecord` would dereference a null slot.
   */
  function AddAll(c: Config, self: Relationship, s: RelState, rs: seq<RecordId>): Option<Step>
    decreases |rs|
  {
    if rs == [] then Some(Step(s, []))
    else
      match AddAll(c, self, s, rs[..|rs| - 1])
      case None => None
      case Some(prev) =>
        if CanAdd(c, prev.state, rs[|rs| - 1]) then
          var st := AddStep(c, self, prev.state, rs[|rs| - 1], None);
          Some(Step(st.state, prev.events + st.events))
        else None
  }

  /** `removeRecords(rs)`: `removeRecord` on each record in order; `None` on a null dereference. */
  function RemoveAll(c: Config, self: Relationship, s: RelState, rs: seq<RecordId>): Option<Step>
    decreases |rs|
  {
    if rs == [] then Some(Step(s, []))
    else
      match RemoveAll(c, self, s, rs[..|rs| - 1])
      case None => None
      case Some(prev) =>
        if CanRemove(c, prev.state) then
          var st := RemoveStep(c, self, prev.state, rs[|rs| - 1]);
          Some(Step(st.state, prev.events + st.events))
        else None
  }

  /** The notifications in `evs` that clear a belongsTo entry, in order. */
  function Removals(evs: seq<Event>): (r: seq<Event>)
    ensures forall i :: 0 <= i < |r| ==> r[i].BelongsToRemoved? && r[i] in evs
    ensures forall i :: 0 <= i < |evs| && evs[i].BelongsToRemoved? ==> evs[i] in r
  {
    if evs == [] then []
    else (if evs[0].BelongsToRemoved? then [evs[0]] else []) + Removals(evs[1..])
  }

  /** `isLoaded` of a record; a record the map does not know is not loaded. */
  predicate IsLoaded(isLoaded: map<RecordId, bool>, r: RecordId) {
    r in isLoaded && isLoaded[r]
  }

  /** The members whose `isLoaded` is false, in member order. */
  function Unloaded(ms: seq<RecordId>, isLoaded: map<RecordId, bool>): (u: seq<RecordId>)
    ensures forall x :: x in u <==> x in ms && !IsLoaded(isLoaded, x)
    ensures |u| <= |ms|
  {
    if ms == [] then []
    else
      var init, last := ms[..|ms| - 1], ms[|ms| - 1];
      assert ms == init + [last];
      Unloaded(init, isLoaded) + (if IsLoaded(isLoaded, last) then [] else [last])
  }

  /** The array given to `setForArray`: `null` counts as empty. */
  function Target(records: Option<seq<RecordId>>): seq<RecordId> {
    if records.Some? then records.value else []
  }


  // ---------------------------------------------------------------------------
  // Properties of the variants
  // ---------------------------------------------------------------------------

  /** `addRecord` keeps the invariant, and leaves a one-to-one relationship with an occupied slot. */
  lemma AddKeepsWellFormed(c: Config, self: Relationship, s: RelState, r: RecordId, existing: Option<RecordId>)
    requires WellFormed(c, s) && CanAdd(c, s, r)
    ensures var t := AddStep(c, self, s, r, existing).state;
      WellFormed(c, t) && (c.kind.OneToOne? ==> t.originalRecord.Some? || t.inverseRecord.Some?)
  {
    var t := AddStep(c, self, s, r, existing).state;
    if c.kind.OneToOne? && r !in s.members {
      forall x ensures x in t.members <==> InSlot(t, x) {
        if s.originalRecord.Some? && s.inverseRecord.Some? {
          assert s.originalRecord.value in s.members && s.inverseRecord.value in s.members;
        }
      }
    }
  }

  /** `removeRecord` keeps the invariant. */
  lemma RemoveKeepsWellFormed(c: Config, self: Relationship, s: RelState, r: RecordId)
    requires WellFormed(c, s) && CanRemove(c, s)
    ensures WellFormed(c, RemoveStep(c, self, s, r).state)
  {
    var t := RemoveStep(c, self, s, r).state;
    if c.kind.OneToOne? {
      forall x ensures x in t.members <==> InSlot(t, x) {
        assert x in s.members <==> InSlot(s, x);
      }
    }
  }

  /** A one-to-one relationship has as many members as occupied slots, so never more than two. */
  lemma OneToOneAtMostTwo(c: Config, s: RelState)
    requires WellFormed(c, s) && c.kind.OneToOne?
    ensures |s.members| == (if s.originalRecord.Some? then 1 else 0) + (if s.inverseRecord.Some? then 1 else 0)
    ensures |s.members| <= 2
  {
    DistinctCard(s.members);
    match (s.originalRecord, s.inverseRecord)
    case (Some(o), Some(i)) =>
      assert Elems(s.members) == {o, i};
    case (Some(o), None) =>
      assert Elems(s.members) == {o};
    case (None, Some(i)) =>
      assert Elems(s.members) == {i};
    case (None, None) =>
      assert Elems(s.members) == {};
  }

  /**
   * Adding a record to a full one-to-one relationship evicts the occupant other than
   * `existing` (the inverse when `existing` is the original, else the original): the
   * evicted record leaves the members and receives the only removal notification, on
   * its own slot's key; the new record takes the evicted slot; the other slot is kept.
   */
  lemma OneToOneEvicts(c: Config, self: Relationship, s: RelState, r: RecordId, existing: Option<RecordId>)
    requires WellFormed(c, s) && c.kind.OneToOne?
    requires s.originalRecord.Some? && s.inverseRecord.Some? && r !in s.members
    ensures var st := AddStep(c, self, s, r, existing);
      var keepOriginal := existing == s.originalRecord;
      var evicted := if keepOriginal then s.inverseRecord.value else s.originalRecord.value;
      var evictedKey := if keepOriginal then c.kind.inverseKey else c.manyName;
      && evicted !in st.state.members
      && |st.state.members| == 2
      && (keepOriginal ==> st.state.originalRecord == s.originalRecord && st.state.inverseRecord == Some(r))
      && (!keepOriginal ==> st.state.originalRecord == Some(r) && st.state.inverseRecord == s.inverseRecord)
      && Removals(st.events) == [BelongsToRemoved(evicted, evictedKey)]
  {
    var st := AddStep(c, self, s, r, existing);
    AddKeepsWellFormed(c, self, s, r, existing);
    OneToOneAtMostTwo(c, st.state);
    var evs := st.events;
    assert |evs| == 3 && evs[0].BelongsToRemoved? && evs[1].BelongsToAdded? && evs[2].BelongsToAdded?;
    assert Removals(evs[2..]) == [] by {
      assert evs[2..][1..] == [];
    }
    assert Removals(evs[1..]) == [] by {
      assert evs[1..][1..] == evs[2..];
    }
  }

  /**
   * Adding to a one-to-one relationship whose inverse slot is free puts the record in
   * that slot; each slot holder then receives exactly one add notification, on its key,
   * and nothing is removed.
   */
  lemma OneToOneFillsInverse(c: Config, self: Relationship, s: RelState, r: RecordId, existing: Option<RecordId>)
    requires WellFormed(c, s) && c.kind.OneToOne?
    requires s.originalRecord.Some? && s.inverseRecord.None? && r !in s.members
    ensures var st := AddStep(c, self, s, r, existing);
      && st.state == RelState(s.members + [r], s.originalRecord, Some(r))
      && st.events == [BelongsToAdded(r, c.kind.inverseKey, self),
                       BelongsToAdded(s.originalRecord.value, c.manyName, self)]
  {
  }

  /** Adding a record a one-to-one relationship already holds changes nothing and notifies nobody. */
  lemma OneToOneAddMember(c: Config, self: Relationship, s: RelState, r: RecordId, existing: Option<RecordId>)
    requires c.kind.OneToOne? && r in s.members
    ensures AddStep(c, self, s, r, existing) == Step(s, [])
  {
  }

  /**
   * `removeRecord(r)` on a one-to-one relationship: `r` is no longer a member nor in a
   * slot, the slot not holding `r` is unchanged (the inverse slot is checked first), and
   * the original record, then the inverse if any, are each notified once of removal.
   */
  lemma OneToOneRemove(c: Config, self: Relationship, s: RelState, r: RecordId)
    requires WellFormed(c, s) && c.kind.OneToOne? && CanRemove(c, s)
    ensures var st := RemoveStep(c, self, s, r);
      && r !in st.state.members && !InSlot(st.state, r)
      && (s.originalRecord != Some(r) ==> st.state.originalRecord == s.originalRecord)
      && (s.inverseRecord != Some(r) ==> st.state.inverseRecord == s.inverseRecord)
      && st.events == [BelongsToRemoved(s.originalRecord.value, c.manyName)] +
                      (if s.inverseRecord.Some? then [BelongsToRemoved(s.inverseRecord.value, c.kind.inverseKey)] else [])
  {
  }

  /** A many-to-none relationship only ever notifies its has-many owner, never the member itself. */
  lemma ManyToNoneNotifiesOwnerOnly(c: Config, self: Relationship, s: RelState, r: RecordId, existing: Option<RecordId>)
    requires c.kind.ManyToNone?
    ensures var add := AddStep(c, self, s, r, existing).events;
      forall i :: 0 <= i < |add| ==> add[i] == HasManyAdded(c.hasManyRecord, c.manyName, r)
    ensures var rem := RemoveStep(c, self, s, r).events;
      forall i :: 0 <= i < |rem| ==> rem[i] == HasManyRemoved(c.hasManyRecord, c.manyName, r)
  {
  }

  /**
   * A one-to-many relationship notifies both sides: the owner that `r` joined or left
   * its has-many key, and `r` that its belongsTo key now holds, or no longer holds,
   * this relationship.
   */
  lemma OneToManyNotifiesBothSides(c: Config, self: Relationship, s: RelState, r: RecordId, existing: Option<RecordId>)
    requires c.kind.OneToMany?
    ensures AddStep(c, self, s, r, existing).events ==
      [HasManyAdded(c.hasManyRecord, c.manyName, r), BelongsToAdded(r, c.kind.belongsToName, self)]
    ensures RemoveStep(c, self, s, r).events ==
      [HasManyRemoved(c.hasManyRecord, c.manyName, r), BelongsToRemoved(r, c.kind.belongsToName)]
  {
  }

  /**
   * Membership round trip: after `addRecord(r)` the record is a member, after a
   * following `removeRecord(r)` it is not, and both steps keep the invariant.
   */
  lemma AddThenRemove(c: Config, self: Relationship, s: RelState, r: RecordId, existing: Option<RecordId>)
    requires WellFormed(c, s) && !c.kind.OneToNone? && CanAdd(c, s, r)
    requires CanRemove(c, AddStep(c, self, s, r, existing).state)
    ensures var added := AddStep(c, self, s, r, existing).state;
      var removed := RemoveStep(c, self, added, r).state;
      r in added.members && r !in removed.members && WellFormed(c, removed)
  {
    var added := AddStep(c, self, s, r, existing).state;
    AddKeepsWellFormed(c, self, s, r, existing);
    RemoveKeepsWellFormed(c, self, added, r);
  }

  /** Adding the same record twice leaves the state of adding it once. */
  lemma AddIdempotent(c: Config, self: Relationship, s: RelState, r: RecordId, e1: Option<RecordId>, e2: Option<RecordId>)
    requires WellFormed(c, s) && CanAdd(c, s, r)
    ensures var once := AddStep(c, self, s, r, e1).state;
      CanAdd(c, once, r) && AddStep(c, self, once, r, e2).state == once
  {
    var once := AddStep(c, self, s, r, e1).state;
    AddKeepsWellFormed(c, self, s, r, e1);
    if !c.kind.OneToNone? {
      assert r in once.members;
    }
  }

  /** Removing the same record twice leaves the state of removing it once. */
  lemma RemoveIdempotent(c: Config, self: Relationship, s: RelState, r: RecordId)
    requires WellFormed(c, s) && CanRemove(c, s)
    requires CanRemove(c, RemoveStep(c, self, s, r).state)
    ensures var once := RemoveStep(c, self, s, r).state;
      RemoveStep(c, self, once, r).state == once
  {
    var once := RemoveStep(c, self, s, r).state;
    RemoveKeepsWellFormed(c, self, s, r);
    if !c.kind.OneToNone? {
      assert r !in once.members;
      DeleteAbsent(once.members, r);
    }
  }

  /**
   * The notifications of `addRecord(r, existing)` only store this relationship, and the
   * only record they clear is an evicted one, which is neither `r` nor `existing`.
   */
  lemma AddEventsPreserve(c: Config, self: Relationship, s: RelState, r: RecordId, existing: Option<RecordId>)
    requires WellFormed(c, s) && CanAdd(c, s, r)
    ensures var evs := AddStep(c, self, s, r, existing).events;
      forall i :: 0 <= i < |evs| ==> Preserves(evs[i], self, r) && (existing.Some? ==> Preserves(evs[i], self, existing.value))
  {
    var evs := AddStep(c, self, s, r, existing).events;
    if c.kind.OneToOne? && r !in s.members && s.originalRecord.Some? && s.inverseRecord.Some? {
      OneToOneFullEvents(c, self, s, r, existing);
      forall i | 0 <= i < |evs|
        ensures Preserves(evs[i], self, r) && (existing.Some? ==> Preserves(evs[i], self, existing.value))
      {
        assert i == 0 || i == 1 || i == 2;
      }
    } else {
      AddEventsNoEviction(c, self, s, r, existing);
      forall i | 0 <= i < |evs|
        ensures Preserves(evs[i], self, r) && (existing.Some? ==> Preserves(evs[i], self, existing.value))
      {
        assert !evs[i].BelongsToRemoved? && (evs[i].BelongsToAdded? ==> evs[i].rel == self);
      }
    }
  }

  /** Without an eviction, `addRecord` only stores this relationship. */
  lemma AddEventsNoEviction(c: Config, self: Relationship, s: RelState, r: RecordId, existing: Option<RecordId>)
    requires CanAdd(c, s, r)
    requires c.kind.OneToOne? ==> r in s.members || s.originalRecord.None? || s.inverseRecord.None?
    ensures var evs := AddStep(c, self, s, r, existing).events;
      forall i :: 0 <= i < |evs| ==> !evs[i].BelongsToRemoved? && (evs[i].BelongsToAdded? ==> evs[i].rel == self)
  {
  }

  /** The notifications of an evicting one-to-one `addRecord`: the eviction, then one add per slot. */
  lemma OneToOneFullEvents(c: Config, self: Relationship, s: RelState, r: RecordId, existing: Option<RecordId>)
    requires WellFormed(c, s) && c.kind.OneToOne?
    requires s.originalRecord.Some? && s.inverseRecord.Some? && r !in s.members
    ensures var evs := AddStep(c, self, s, r, existing).events;
      var evicted := if existing == s.originalRecord then s.inverseRecord.value else s.originalRecord.value;
      && |evs| == 3 && evs[0].BelongsToRemoved? && evs[0].target == evicted
      && evicted != r && Some(evicted) != existing
      && evs[1].BelongsToAdded? && evs[1].rel == self && evs[2].BelongsToAdded? && evs[2].rel == self
  {
    assert s.originalRecord.value in s.members && s.inverseRecord.value in s.members;
  }

  /** A prefix of a bulk add that does not fail does not fail either. */
  lemma {:induction false} AddAllPrefix(c: Config, self: Relationship, s: RelState, rs: seq<RecordId>, n: nat)
    requires n <= |rs| && AddAll(c, self, s, rs).Some?
    ensures AddAll(c, self, s, rs[..n]).Some?
    decreases |rs|
  {
    if n < |rs| {
      AddAllPrefix(c, self, s, rs[..|rs| - 1], n);
      assert rs[..|rs| - 1][..n] == rs[..n];
    } else {
      assert rs[..n] == rs;
    }
  }

  /** A prefix of a bulk remove that does not fail does not fail either. */
  lemma {:induction false} RemoveAllPrefix(c: Config, self: Relationship, s: RelState, rs: seq<RecordId>, n: nat)
    requires n <= |rs| && RemoveAll(c, self, s, rs).Some?
    ensures RemoveAll(c, self, s, rs[..n]).Some?
    decreases |rs|
  {
    if n < |rs| {
      RemoveAllPrefix(c, self, s, rs[..|rs| - 1], n);
      assert rs[..|rs| - 1][..n] == rs[..n];
    } else {
      assert rs[..n] == rs;
    }
  }

  /** Every prefix of a bulk add whose first record can be added is defined. */
  lemma AddAllPrefixDefined(c: Config, self: Relationship, s: RelState, rs: seq<RecordId>, n: nat)
    requires WellFormed(c, s) && (rs != [] ==> CanAdd(c, s, rs[0])) && n <= |rs|
    ensures AddAll(c, self, s, rs[..n]).Some?
  {
    AddAllDefined(c, self, s, rs);
    AddAllPrefix(c, self, s, rs, n);
  }

  /**
   * `removeRecords` on a has-many variant never hits a null, and leaves exactly the
   * members that are not among the records given.
   */
  lemma {:induction false} RemoveAllRemoves(c: Config, self: Relationship, s: RelState, rs: seq<RecordId>)
    requires c.kind.OneToMany? || c.kind.ManyToNone?
    ensures RemoveAll(c, self, s, rs).Some?
    ensures forall x :: x in RemoveAll(c, self, s, rs).value.state.members <==> x in s.members && x !in rs
    decreases |rs|
  {
    if rs != [] {
      var init := rs[..|rs| - 1];
      RemoveAllRemoves(c, self, s, init);
      assert rs == init + [rs[|rs| - 1]];
    }
  }

  /** One more record of a bulk add that does not fail: the prefix's step followed by one `addRecord`. */
  lemma AddAllStep(c: Config, self: Relationship, s: RelState, rs: seq<RecordId>, i: nat)
    requires i < |rs| && AddAll(c, self, s, rs[..i + 1]).Some?
    ensures AddAll(c, self, s, rs[..i]).Some?
    ensures var prev := AddAll(c, self, s, rs[..i]).value;
      CanAdd(c, prev.state, rs[i]) &&
      var st := AddStep(c, self, prev.state, rs[i], None);
      AddAll(c, self, s, rs[..i + 1]) == Some(Step(st.state, prev.events + st.events))
  {
    assert rs[..i + 1][..i] == rs[..i];
  }

  /** The bulk add of a longer prefix, from the bulk add of the shorter one. */
  lemma AddAllNext(c: Config, self: Relationship, s: RelState, rs: seq<RecordId>, i: nat, t: RelState, evs: seq<Event>)
    requires WellFormed(c, s) && (rs != [] ==> CanAdd(c, s, rs[0])) && i < |rs|
    requires AddAll(c, self, s, rs[..i]) == Some(Step(t, evs))
    ensures CanAdd(c, t, rs[i])
    ensures AddAll(c, self, s, rs[..i + 1]) ==
      Some(Step(AddStep(c, self, t, rs[i], None).state, evs + AddStep(c, self, t, rs[i], None).events))
  {
    AddAllPrefixDefined(c, self, s, rs, i + 1);
    AddAllStep(c, self, s, rs, i);
  }

  /** One more record of a bulk remove that does not fail: the prefix's step followed by one `removeRecord`. */
  lemma RemoveAllStep(c: Config, self: Relationship, s: RelState, rs: seq<RecordId>, i: nat)
    requires i < |rs| && RemoveAll(c, self, s, rs[..i + 1]).Some?
    ensures RemoveAll(c, self, s, rs[..i]).Some?
    ensures var prev := RemoveAll(c, self, s, rs[..i]).value;
      CanRemove(c, prev.state) &&
      var st := RemoveStep(c, self, prev.state, rs[i]);
      RemoveAll(c, self, s, rs[..i + 1]) == Some(Step(st.state, prev.events + st.events))
  {
    assert rs[..i + 1][..i] == rs[..i];
  }

  /**
   * `addRecords` never fails once its first record can be added: every `addRecord`
   * leaves a one-to-one relationship with an occupied slot. The result keeps the
   * invariant and, for the has-many variants, holds every record added.
   */
  lemma {:induction false} AddAllDefined(c: Config, self: Relationship, s: RelState, rs: seq<RecordId>)
    requires WellFormed(c, s) && (rs != [] ==> CanAdd(c, s, rs[0]))
    ensures AddAll(c, self, s, rs).Some?
    ensures WellFormed(c, AddAll(c, self, s, rs).value.state)
    ensures rs != [] && c.kind.OneToOne? ==>
      AddAll(c, self, s, rs).value.state.originalRecord.Some? || AddAll(c, self, s, rs).value.state.inverseRecord.Some?
    ensures c.kind.OneToMany? || c.kind.ManyToNone? ==>
      forall i :: 0 <= i < |rs| ==> rs[i] in AddAll(c, self, s, rs).value.state.members
    decreases |rs|
  {
    if rs != [] {
      var init := rs[..|rs| - 1];
      if init != [] {
        assert init[0] == rs[0];
      }
      AddAllDefined(c, self, s, init);
      var prev := AddAll(c, self, s, init).value;
      assert CanAdd(c, prev.state, rs[|rs| - 1]);
      AddKeepsWellFormed(c, self, prev.state, rs[|rs| - 1], None);
      var next := AddStep(c, self, prev.state, rs[|rs| - 1], None).state;
      if c.kind.OneToMany? || c.kind.ManyToNone? {
        forall i | 0 <= i < |rs| ensures rs[i] in next.members {
          if i < |rs| - 1 {
            assert rs[i] == init[i];
          }
        }
      }
    }
  }

  /**
   * A relationship object. The variant and owner are fixed when it is created; the
   * members and slots are updated in place, and every update reaches the records
   * through `g`, the records' side.
   */
  class Relationship {
    const kind: Kind
    const hasManyRecord: RecordId
    const manyName: Key
    var members: seq<RecordId>
    var originalRecord: Option<RecordId>
    var inverseRecord: Option<RecordId>

    function Cfg(): Config {
      Config(kind, hasManyRecord, manyName)
    }

    function State(): RelState
      reads this
    {
      RelState(members, originalRecord, inverseRecord)
    }

    ghost predicate Valid()
      reads this
    {
      WellFormed(Cfg(), State())
    }

    /** The constructors of the four variants, given the record and key the relationship is created for. */
    constructor (kind: Kind, record: RecordId, key: Key)
      ensures Cfg() == Config(kind, record, key)
      ensures State() == Initial(Cfg())
      ensures Valid()
    {
      this.kind := kind;
      this.hasManyRecord := record;
      this.manyName := key;
      members := if kind.OneToOne? then [record] else [];
      originalRecord := Some(record);
      inverseRecord := None;
    }

    /** `addRecord(record, existingRecord)` of the relationship's variant. */
    method AddRecord(g: Records<Relationship>, record: RecordId, existing: Option<RecordId>)
      requires Valid() && g.Valid() && CanAdd(Cfg(), State(), record)
      modifies this, g
      ensures Valid() && g.Valid()
      ensures var st := AddStep(Cfg(), this, old(State()), record, existing);
        && State() == st.state
        && g.log == old(g.log) + st.events
        && g.tables == ApplyAll(old(g.tables), st.events)
    {
      AddKeepsWellFormed(Cfg(), this, State(), record, existing);
      ApplyAllAppend(g.initial, g.log, AddStep(Cfg(), this, State(), record, existing).events);
      match kind {
        case OneToMany(belongsToName) =>
          members := Insert(members, record);
          g.NotifyHasManyAdded(hasManyRecord, manyName, record);
          g.NotifyBelongsToAdded(record, belongsToName, this);
        case ManyToNone =>
          members := Insert(members, record);
          g.NotifyHasManyAdded(hasManyRecord, manyName, record);
        case OneToNone =>
          inverseRecord := Some(record);
          g.NotifyBelongsToAdded(originalRecord.value, manyName, this);
        case OneToOne(_) =>
          OneToOneAddRecord(g, record, existing);
      }
    }

    /** `OneToOne.addRecord(newRecord, existingRecord)`. */
    method OneToOneAddRecord(g: Records<Relationship>, record: RecordId, existing: Option<RecordId>)
      requires g.Valid() && kind.OneToOne? && CanAdd(Cfg(), State(), record)
      modifies this, g
      ensures g.Valid()
      ensures var st := OneToOneAdd(Cfg(), this, old(State()), record, existing);
        State() == st.state && g.log == old(g.log) + st.events
    {
      var inverseKey := kind.inverseKey;
      if record in members {
        return;
      }
      ghost var log0 := g.log;
      if originalRecord.Some? && inverseRecord.Some? {
        // full: one of the two must go to keep at most two members
        var evicted: RecordId, key: Key;
        if existing == originalRecord {
          // keep the original, evict the inverse
          evicted, key := inverseRecord.value, inverseKey;
          inverseRecord := Some(record);
        } else {
          evicted, key := originalRecord.value, manyName;
          originalRecord := Some(record);
        }
        members := Delete(members, evicted);
        g.NotifyBelongsToRemoved(evicted, key);
        members := Insert(members, record);
        g.NotifyBelongsToAdded(inverseRecord.value, inverseKey, this);
        g.NotifyBelongsToAdded(originalRecord.value, manyName, this);
        AppendThree(log0, BelongsToRemoved(evicted, key), BelongsToAdded(inverseRecord.value, inverseKey, this), BelongsToAdded(originalRecord.value, manyName, this));
      } else {
        if originalRecord.Some? {
          inverseRecord := Some(record);
        } else {
          originalRecord := Some(record);
        }
        members := Insert(members, record);
        g.NotifyBelongsToAdded(inverseRecord.value, inverseKey, this);
        g.NotifyBelongsToAdded(originalRecord.value, manyName, this);
        AppendTwo(log0, BelongsToAdded(inverseRecord.value, inverseKey, this), BelongsToAdded(originalRecord.value, manyName, this));
      }
    }

    /** `removeRecord(record)` of the relationship's variant. */
    method RemoveRecord(g: Records<Relationship>, record: RecordId)
      requires Valid() && g.Valid() && CanRemove(Cfg(), State())
      modifies this, g
      ensures Valid() && g.Valid()
      ensures var st := RemoveStep(Cfg(), this, old(State()), record);
        && State() == st.state
        && g.log == old(g.log) + st.events
        && g.tables == ApplyAll(old(g.tables), st.events)
    {
      RemoveKeepsWellFormed(Cfg(), this, State(), record);
      ApplyAllAppend(g.initial, g.log, RemoveStep(Cfg(), this, State(), record).events);
      match kind {
        case OneToMany(belongsToName) =>
          members := Delete(members, record);
          g.NotifyHasManyRemoved(hasManyRecord, manyName, record);
          g.NotifyBelongsToRemoved(record, belongsToName);
        case ManyToNone =>
          members := Delete(members, record);
          g.NotifyHasManyRemoved(hasManyRecord, manyName, record);
        case OneToNone =>
          inverseRecord := None;
          g.NotifyBelongsToRemoved(originalRecord.value, manyName);
        case OneToOne(inverseKey) =>
          members := Delete(members, record);
          g.NotifyBelongsToRemoved(originalRecord.value, manyName);
          if inverseRecord.Some? {
            g.NotifyBelongsToRemoved(inverseRecord.value, inverseKey);
          }
          if inverseRecord == Some(record) {
            inverseRecord := None;
          } else if originalRecord == Some(record) {
            originalRecord := None;
          }
      }
    }

    /** `getOtherSideFor(record)`: the record on the other side of this relationship, if any. */
    function GetOtherSideFor(record: RecordId): (other: Option<RecordId>)
      reads this
      ensures kind.OneToNone? || kind.ManyToNone? ==> other.None?
      ensures kind.OneToMany? ==> other == Some(hasManyRecord)
      ensures kind.OneToOne? && Valid() && record in members ==>
        other != Some(record) && (other.Some? ==> other.value in members)
    {
      match kind
      case OneToMany(_) => Some(hasManyRecord)
      case OneToOne(_) =>
        assert Valid() && record in members ==> InSlot(State(), record);
        if Some(record) == originalRecord then inverseRecord else originalRecord
      case _ => None
    }

    /** `hasOtherSideFor(record)`: `getOtherSideFor` gives a record. */
    predicate HasOtherSideFor(record: RecordId): (has: bool)
      reads this
      ensures has ==> kind.OneToMany? || kind.OneToOne?
      ensures kind.OneToMany? ==> has
      ensures kind.OneToOne? && Valid() && record in members ==> (has <==> originalRecord.Some? && inverseRecord.Some?)
    {
      GetOtherSideFor(record).Some?
    }

    /** `unloadedMembers()`: the members whose `isLoaded` is false, in member order. */
    method UnloadedMembers(isLoaded: map<RecordId, bool>) returns (unloaded: seq<RecordId>)
      ensures unloaded == Unloaded(members, isLoaded)
      ensures forall x :: x in unloaded <==> x in members && !IsLoaded(isLoaded, x)
    {
      unloaded := [];
      var i := 0;
      while i < |members|
        invariant 0 <= i <= |members|
        invariant unloaded == Unloaded(members[..i], isLoaded)
      {
        assert members[..i + 1][..i] == members[..i];
        if !IsLoaded(isLoaded, members[i]) {
          unloaded := unloaded + [members[i]];
        }
        i := i + 1;
      }
      assert members[..i] == members;
    }

    /** `addRecords(records)`: `addRecord(r)` for each record in order, with no existing record. */
    method AddRecords(g: Records<Relationship>, records: seq<RecordId>)
      requires Valid() && g.Valid()
      requires records != [] ==> CanAdd(Cfg(), State(), records[0])
      modifies this, g
      ensures Valid() && g.Valid()
      ensures AddAll(Cfg(), this, old(State()), records).Some?
      ensures var st := AddAll(Cfg(), this, old(State()), records).value;
        && State() == st.state
        && g.log == old(g.log) + st.events
        && g.tables == ApplyAll(old(g.tables), st.events)
    {
      ghost var s0, log0 := State(), g.log;
      ghost var evs: seq<Event> := [];
      var i := 0;
      while i < |records|
        invariant 0 <= i <= |records|
        invariant Valid() && g.Valid()
        invariant AddAll(Cfg(), this, s0, records[..i]) == Some(Step(State(), evs))
        invariant g.log == log0 + evs
      {
        evs := AddRecordsRound(g, records, i, s0, log0, evs);
        i := i + 1;
      }
      assert records[..i] == records;
      ApplyAllAppend(g.initial, log0, evs);
    }

    /** One round of `addRecords`: adding `records[i]` extends the bulk add by that record. */
    method AddRecordsRound(g: Records<Relationship>, records: seq<RecordId>, i: nat,
                           ghost s0: RelState, ghost log0: seq<Event>, ghost evs: seq<Event>)
      returns (ghost next: seq<Event>)
      requires Valid() && g.Valid() && i < |records|
      requires WellFormed(Cfg(), s0) && CanAdd(Cfg(), s0, records[0])
      requires AddAll(Cfg(), this, s0, records[..i]) == Some(Step(State(), evs)) && g.log == log0 + evs
      modifies this, g
      ensures Valid() && g.Valid()
      ensures AddAll(Cfg(), this, s0, records[..i + 1]) == Some(Step(State(), next)) && g.log == log0 + next
    {
      AddAllNext(Cfg(), this, s0, records, i, State(), evs);
      ghost var st := AddStep(Cfg(), this, State(), records[i], None);
      AddRecord(g, records[i], None);
      next := evs + st.events;
      AppendAssoc(log0, evs, st.events);
    }

    /** `removeRecords(records)`: `removeRecord(r)` for each record in order. */
    method RemoveRecords(g: Records<Relationship>, records: seq<RecordId>)
      requires Valid() && g.Valid()
      requires RemoveAll(Cfg(), this, State(), records).Some?
      modifies this, g
      ensures Valid() && g.Valid()
      ensures var st := RemoveAll(Cfg(), this, old(State()), records).value;
        && State() == st.state
        && g.log == old(g.log) + st.events
        && g.tables == ApplyAll(old(g.tables), st.events)
    {
      ghost var s0, log0 := State(), g.log;
      ghost var evs: seq<Event> := [];
      var i := 0;
      while i < |records|
        invariant 0 <= i <= |records|
        invariant Valid() && g.Valid()
        invariant RemoveAll(Cfg(), this, s0, records[..i]) == Some(Step(State(), evs))
        invariant g.log == log0 + evs
      {
        evs := RemoveRecordsRound(g, records, i, s0, log0, evs);
        i := i + 1;
      }
      assert records[..i] == records;
      ApplyAllAppend(g.initial, log0, evs);
    }

    /** One round of `removeRecords`: removing `records[i]` extends the bulk remove by that record. */
    method RemoveRecordsRound(g: Records<Relationship>, records: seq<RecordId>, i: nat,
                              ghost s0: RelState, ghost log0: seq<Event>, ghost evs: seq<Event>)
      returns (ghost next: seq<Event>)
      requires Valid() && g.Valid() && i < |records|
      requires RemoveAll(Cfg(), this, s0, records).Some?
      requires RemoveAll(Cfg(), this, s0, records[..i]) == Some(Step(State(), evs)) && g.log == log0 + evs
      modifies this, g
      ensures Valid() && g.Valid()
      ensures RemoveAll(Cfg(), this, s0, records[..i + 1]) == Some(Step(State(), next)) && g.log == log0 + next
    {
      RemoveAllPrefix(Cfg(), this, s0, records, i + 1);
      RemoveAllStep(Cfg(), this, s0, records, i);
      ghost var st := RemoveStep(Cfg(), this, State(), records[i]);
      RemoveRecord(g, records[i]);
      next := evs + st.events;
      AppendAssoc(log0, evs, st.events);
    }

    /**
     * `removeAllRecords()`: removes the inverse record, if there is one. Only a one-to-one
     * or one-to-none relationship ever has one, so for the has-many variants this does nothing.
     */
    method RemoveAllRecords(g: Records<Relationship>)
      requires Valid() && g.Valid()
      requires inverseRecord.Some? ==> CanRemove(Cfg(), State())
      modifies this, g
      ensures Valid() && g.Valid() && inverseRecord.None?
      ensures old(inverseRecord).None? ==> State() == old(State()) && g.log == old(g.log) && g.tables == old(g.tables)
      ensures old(inverseRecord).Some? ==>
        var st := RemoveStep(Cfg(), this, old(State()), old(inverseRecord).value);
        State() == st.state && g.log == old(g.log) + st.events
      ensures old(inverseRecord).Some? ==> old(inverseRecord).value !in members
    {
      if inverseRecord.Some? {
        RemoveRecord(g, inverseRecord.value);
      }
    }

    /**
     * `computeChanges(records)`: makes `members` the set of `records` (`null` is empty)
     * and returns the records that joined and the members that left, each in order.
     * It rewrites `members` only: the slots are left as they were.
     */
    method ComputeChanges(records: Option<seq<RecordId>>) returns (added: seq<RecordId>, removed: seq<RecordId>)
      requires Distinct(members)
      modifies this`members
      ensures added == Without(Dedup(Target(records)), old(members))
      ensures removed == Without(old(members), Target(records))
      ensures members == Within(old(members), Target(records)) + added
      ensures forall x :: x in added <==> x in Target(records) && x !in old(members)
      ensures forall x :: x in removed <==> x in old(members) && x !in Target(records)
      ensures forall x :: x in members <==> x in Target(records)
      ensures Distinct(added) && Distinct(removed) && Distinct(members)
      // the has-many variants keep their invariant; the slots of the others are not touched
      ensures old(Valid()) && (kind.OneToMany? || kind.ManyToNone?) ==> Valid()
    {
      var target := SetForArray(records);
      ghost var before := members;
      added := AddMissing(target);
      removed := RemoveAbsent(target);
      WithinAppend(before, added, target);
      WithinSubset(added, target);
      WithoutAppend(before, added, target);
      WithoutCovered(added, target);
      FilterSameElems(before, target, Target(records));
      if old(Valid()) && (kind.OneToMany? || kind.ManyToNone?) {
        HasManyMembersOnly(Cfg(), old(State()), members);
        assert State() == old(State()).(members := members);
      }
    }

    /**
     * The first pass of `computeChanges`: every record of `target` that is not yet a member
     * joins, in the order of `target`.
     */
    method AddMissing(target: seq<RecordId>) returns (added: seq<RecordId>)
      requires Distinct(members) && Distinct(target)
      modifies this`members
      ensures added == Without(target, old(members))
      ensures members == old(members) + added && Distinct(members)
    {
      var before, current := members, members;
      added := [];
      var i := 0;
      while i < |target|
        invariant 0 <= i <= |target|
        invariant added == Without(target[..i], before)
        invariant current == before + added && Distinct(current)
      {
        var record := target[i];
        ComputeAddStep(before, target, i, added);
        if record !in current {
          current := Insert(current, record);
          added := added + [record];
        }
        i := i + 1;
      }
      assert target[..i] == target;
      members := current;
    }

    /**
     * The second pass of `computeChanges`: every member absent from `target` is removed,
     * in member order. `forEach` visits a snapshot of the members, so removing during
     * the visit does not skip any.
     */
    method RemoveAbsent(target: seq<RecordId>) returns (removed: seq<RecordId>)
      requires Distinct(members)
      modifies this`members
      ensures removed == Without(old(members), target)
      ensures members == Within(old(members), target)
    {
      var snapshot, current := members, members;
      var rest := snapshot;
      ghost var visited: seq<RecordId> := [];
      removed := [];
      while rest != []
        invariant visited + rest == snapshot
        invariant removed == Without(visited, target)
        invariant current == Within(visited, target) + rest
      {
        var member := rest[0];
        assert visited + [member] + rest[1..] == snapshot;
        DistinctSplit(visited, member, rest[1..]);
        WithoutSnoc(visited, member, target);
        WithinSnoc(visited, member, target);
        assert current == Within(visited, target) + [member] + rest[1..] by {
          assert rest == [member] + rest[1..];
        }
        if member !in target {
          DeleteSplit(Within(visited, target), member, rest[1..]);
          current := Delete(current, member);
          removed := removed + [member];
        }
        visited, rest := visited + [member], rest[1..];
      }
      assert visited == snapshot;
      members := current;
    }
  }

  /** The has-many variants' invariant asks of the members only that they form a set. */
  lemma HasManyMembersOnly(c: Config, s: RelState, ms: seq<RecordId>)
    requires WellFormed(c, s) && (c.kind.OneToMany? || c.kind.ManyToNone?) && Distinct(ms)
    ensures WellFormed(c, s.(members := ms))
  {
  }

  /** One step of `computeChanges`' first loop: the next record joins exactly when it was not a member. */
  lemma ComputeAddStep(before: seq<RecordId>, target: seq<RecordId>, i: nat, added: seq<RecordId>)
    requires Distinct(target) && i < |target| && added == Without(target[..i], before)
    ensures target[i] in before + added <==> target[i] in before
    ensures Without(target[..i + 1], before) == added + (if target[i] in before then [] else [target[i]])
    ensures target[i] !in before ==> Insert(before + added, target[i]) == before + added + [target[i]]
  {
    assert target[..i + 1] == target[..i] + [target[i]];
    assert target == target[..i] + [target[i]] + target[i + 1..];
    DistinctSplit(target[..i], target[i], target[i + 1..]);
    WithoutSnoc(target[..i], target[i], before);
  }

  /** `setForArray(array)`: the array's records as an ordered set; `null` gives the empty set. */
  method SetForArray(arr: Option<seq<RecordId>>) returns (result: seq<RecordId>)
    ensures result == Dedup(Target(arr))
    ensures Distinct(result) && forall x :: x in result <==> x in Target(arr)
  {
    result := [];
    if arr.Some? {
      var a := arr.value;
      var i := 0;
      while i < |a|
        invariant 0 <= i <= |a|
        invariant result == Dedup(a[..i])
      {
        assert a[..i + 1][..i] == a[..i];
        result := Insert(result, a[i]);
        i := i + 1;
      }
      assert a[..i] == a;
    }
  }

  /**
   * In a one-to-one relationship a member has an other side exactly when both slots are
   * occupied, and the other side is symmetric: the other side of a slot holder is the
   * other slot's holder, whose other side is the first record again.
   */
  lemma OneToOneOtherSideSymmetric(rel: Relationship, record: RecordId)
    requires rel.Valid() && rel.kind.OneToOne? && record in rel.members
    ensures rel.HasOtherSideFor(record) <==> rel.originalRecord.Some? && rel.inverseRecord.Some?
    ensures rel.HasOtherSideFor(record) ==>
      && rel.GetOtherSideFor(record).value in rel.members
      && rel.GetOtherSideFor(record).value != record
      && rel.GetOtherSideFor(rel.GetOtherSideFor(record).value) == Some(record)
  {
    assert InSlot(rel.State(), record);
  }

  // ---------------------------------------------------------------------------
  // The factory
  // ---------------------------------------------------------------------------

  /** The kind of a declared relationship. */
  datatype RelKind = BelongsTo | HasMany

  /** The declaring side: its kind and key (`knownSide`). */
  datatype Meta = Meta(kind: RelKind, key: Key)

  /** What the type metadata reports as the inverse of a key (`inverseFor`). */
  datatype Inverse = Inverse(name: Key, kind: RelKind)

  /**
   * The variant `createRelationshipFor` builds for a declared side and its inverse; a
   * has-many with a has-many inverse also gets OneToMany, and a belongsTo whose inverse
   * is a has-many gets nothing (the has-many side creates it).
   */
  function VariantFor(knownSide: Meta, inverse: Option<Inverse>): (k: Option<Kind>)
    ensures k == Some(OneToNone) <==> knownSide.kind.BelongsTo? && inverse.None?
    ensures k == Some(ManyToNone) <==> knownSide.kind.HasMany? && inverse.None?
    ensures (k.Some? && k.value.OneToMany?) <==> knownSide.kind.HasMany? && inverse.Some?
    ensures (k.Some? && k.value.OneToOne?) <==>
      knownSide.kind.BelongsTo? && inverse.Some? && inverse.value.kind.BelongsTo?
    ensures k.None? <==> knownSide.kind.BelongsTo? && inverse.Some? && inverse.value.kind.HasMany?
    ensures k.Some? && (k.value.OneToMany? || k.value.OneToOne?) ==>
      inverse.Some? && k.value == (if k.value.OneToMany? then OneToMany(inverse.value.name) else OneToOne(inverse.value.name))
  {
    match inverse
    case None => if knownSide.kind.BelongsTo? then Some(OneToNone) else Some(ManyToNone)
    case Some(inv) =>
      if knownSide.kind.HasMany? then Some(OneToMany(inv.name))
      else if inv.kind.BelongsTo? then Some(OneToOne(inv.name))
      else None
  }

  /**
   * `createRelationshipFor(record, knownSide)`, given what the record type reports as
   * the inverse of `knownSide.key`: a fresh relationship of the variant `VariantFor`
   * chooses, created for `record` and `knownSide.key`, or null.
   */
  method CreateRelationshipFor(record: RecordId, knownSide: Meta, inverse: Option<Inverse>) returns (rel: Relationship?)
    ensures rel == null <==> VariantFor(knownSide, inverse).None?
    ensures rel != null ==>
      && fresh(rel) && rel.Valid()
      && rel.Cfg() == Config(VariantFor(knownSide, inverse).value, record, knownSide.key)
      && rel.State() == Initial(rel.Cfg())
  {
    var kind := VariantFor(knownSide, inverse);
    if kind.None? {
      return null;
    }
    rel := new Relationship(kind.value, record, knownSide.key);
  }
}

=== FILE: wrappers.dfy ===
/** The optional value used wherever the source stores or returns `null`/`undefined`. */
module Wrappers {
  datatype Option<+T> = None | Some(value: T)
}
